=== FILE: README.md ===
# Boko-Hacks 2025 core, modelled in Dafny

Boko-Hacks 2025 is a Flask training application. It has user registration and login, a notes app, file uploads, an admin table, a 401k retirement ledger and a news feed. This project models the logic inside its handlers and models as pure Dafny functions over immutable state:

- A table is a sequence of records in insertion order. A new primary key is one more than the largest key in use.
- The Flask session is a value holding an optional user and an optional CAPTCHA text.
- A request is a function from the old state and the request's inputs to the new state and an outcome. Each outcome names the HTTP status it answers with.
- Library calls, the network and the clock are inputs. This covers the password hash, `mimetypes.guess_type`, the reCAPTCHA verdict, the upstream news service and `now`.
- Markup escaping and `secure_filename` are modelled concretely. Both are needed to state what gets stored.

Modules, one per component:

| module | file | models |
|---|---|---|
| `Common` | common.dfy | `Option`, `Result`, decoded JSON, the session, row filtering, the next primary key |
| `Text` | text.dfy | the Python `str` operations the handlers use (`strip`, `lower`, `upper`, `in`, `rsplit`, `str(int)`) |
| `Html` | html.dfy | `Markup.escape` and the entity decoding a browser applies |
| `Credentials` | credentials.dfy | the `User` model: username normalisation, the password regex, `set_password` / `check_password`, the `users` table |
| `Registration` | registration.dfy | both `/register` handlers and the score-based CAPTCHA endpoint |
| `Login` | login.dfy | `/login` and `/logout` |
| `Notes` | notes.dfy | the `Note` model, `create_note` and `search_notes` |
| `SafeNames` | safe_names.dfy | `secure_filename`, `os.path.join`, `os.path.splitext` |
| `Files` | files.dfy | the file routes: allow-list, MIME check, upload, delete, download |
| `FileModel` | file_model.dfy | the `File` model: its allow-list and the collision-free naming loop of `secure_save_file` |
| `Admins` | admin.dfy | the `Admin` default-flag validator and the default-admin purge |
| `Retirement` | retirement.dfy | the 401k ledger: balance, contribute, reset |
| `News` | news.dfy | category mapping, article projection and the internal-news gate of `/apps/news/fetch` |

The quirks of the code are kept and stated as lemmas, not smoothed over:

- The older registration handler's own password check is weaker than the model's regex.
- Lookups use the raw submitted username.
- The regex `$` accepts one trailing line break.
- Escaping happens before the 200-character title check.
- A whitespace-only note title or content passes the route's own check and fails in the validator, which answers 500 rather than 400.
- Search does not filter by owner.
- The route and the model have different extension allow-lists.
- `MAX_FILE_SIZE` is never enforced (`Files.SizeNeverChecked`).
- A colliding upload overwrites the stored file on disk before the insert fails.

### More behaviour of the code

- Only `File.secure_save_file` adds a `_k` suffix when a name is taken (`FileModel.SecureSaveFile`). The upload route writes to the sanitised path and then fails on the unique column (`Files.CollisionOverwritesStoredFile`).
- A reset of a user with no account answers 404 and creates nothing (`Retirement.Reset`).
- Notes are stored escaped, not escaped when shown (`Notes.CreateNote`).
- The news handler passes a non-200 upstream status through unchanged (`News.FetchNews`).
- The older registration handler has no exception handler around `set_password`, so a rejected password ends in a 500 (`Registration.LegacyCheckWeakerThanPolicy`).

## Model

| member | source | states |
|---|---|---|
| Credentials.ValidateUsername | bokohacks/Boko-Hacks-2025/models/user.py:57-63 | a missing name is an error; a name is accepted iff its stripped length is 3..150; the result is the stripped, lower-cased input and is in normal form |
| Credentials.ValidateUsernameIdempotent | bokohacks/Boko-Hacks-2025/models/user.py:60-63 | an accepted username is accepted again, unchanged |
| Credentials.NormalizedFixpoint | bokohacks/Boko-Hacks-2025/models/user.py:60 | a stored (normal-form) username normalises to itself |
| Credentials.SameIdentity | bokohacks/Boko-Hacks-2025/models/user.py:60-63 | names differing only in letter case and surrounding whitespace validate to the same username |
| Credentials.ValidatePassword | bokohacks/Boko-Hacks-2025/models/user.py:65-68 | accepted iff the password meets the policy (8+ characters from `[A-Za-z0-9@$!%*?&]` with a letter, a digit and a special), or is such a password followed by one `\n` |
| Credentials.PasswordRegexMeaning | bokohacks/Boko-Hacks-2025/models/user.py:68 | the regex as the `re` engine runs it (lookaheads stopping at a line break, greedy class run, `$`) agrees with that policy |
| Credentials.ForeignCharRejected | bokohacks/Boko-Hacks-2025/models/user.py:68 | a character outside the class (other than one final `\n`) makes the password rejected whatever its length |
| Credentials.TrailingLineBreakAccepted | bokohacks/Boko-Hacks-2025/models/user.py:68 | a policy password plus `\n` is accepted although it breaks the policy; plus `\n\n` is rejected |
| Credentials.SetPassword | bokohacks/Boko-Hacks-2025/models/user.py:47-55 | a missing or rejected password raises and no hash is set; otherwise the hash checks exactly the given password and nothing else changes |
| Credentials.FindUser | bokohacks/Boko-Hacks-2025/routes/login.py:19 | finds a row iff a row has exactly that name; the result is the first such row |
| Credentials.NewUser | bokohacks/Boko-Hacks-2025/routes/register.py:105-109 | a user is created iff the name and password validate and the normalised name is not stored; the new row has a fresh id, the normalised name and a hash of the password |
| Credentials.NewUserKeepsWellFormed | bokohacks/Boko-Hacks-2025/models/user.py:43-45 | adding an accepted user keeps ids and usernames unique, hashes present and names normalised |
| Registration.Register | bokohacks/Boko-Hacks-2025/routes/register.py:78-118 | a user is stored iff the text CAPTCHA matches, reCAPTCHA passes and the user is admissible; otherwise the table is unchanged; a matching CAPTCHA is removed from the session, a wrong one stays; a missing response crashes |
| Registration.RegisterKeepsWellFormed | bokohacks/Boko-Hacks-2025/routes/register.py:98-116 | every registration attempt keeps the `users` invariant |
| Registration.RegisteredUserIsLast | bokohacks/Boko-Hacks-2025/routes/register.py:105-112 | a successful registration appends one user, under the normalised name, whose password checks |
| Registration.RegisteredNameKept | bokohacks/Boko-Hacks-2025/routes/register.py:105-112 | a name submitted in normal form is stored as submitted |
| Registration.CaptchaSingleUse | bokohacks/Boko-Hacks-2025/routes/register.py:87-91 | after one attempt with a matching CAPTCHA, any second attempt in the resulting session is rejected and stores nothing |
| Registration.DuplicateIdentityRejected | bokohacks/Boko-Hacks-2025/routes/register.py:98-116 | a name that normalises to a stored username is never registered again |
| Registration.CaseVariantFailsAtCommit | bokohacks/Boko-Hacks-2025/routes/register.py:99-116 | a case variant of a stored name passes the raw duplicate check and fails only at commit, as a generic failure |
| Registration.LegacyRegister | Boko-Hacks-2025/routes/register.py:38-60 | the older handler stores a user iff its own password check and the model's checks pass; a password failing its own check is rejected with nothing stored; a missing password crashes on `len(None)` (500); a password passing its own check under a name stored exactly as submitted is redirected as a taken name |
| Registration.PolicyImpliesLegacyCheck | Boko-Hacks-2025/routes/register.py:45 | every password the regex accepts passes the older check |
| Registration.LegacyCheckWeakerThanPolicy | Boko-Hacks-2025/routes/register.py:45-57 | a password with a character outside the regex class passes the older check and then crashes in `set_password`, storing nothing |
| Registration.ScoreStatus | Boko-Hacks-2025/routes/register.py:28-34 | 200 iff the score is a number ≥ 2; 400 iff it is a number below 2 or a boolean; a value that cannot be compared gives 500 |
| Registration.VerifyCaptchaStatus | Boko-Hacks-2025/routes/register.py:17-36 | 200 iff the body is an object with a numeric `score` ≥ 2; an object with a `score` answers as that score does; 400 iff the body is missing or falsy, an object without `score` or with a score below 2 or boolean, a list without the string `"score"` or a string not containing `score`; every other body gives 500 |
| Login.Login | bokohacks/Boko-Hacks-2025/routes/login.py:9-27 | a missing or empty field, and only that, gives the "required" outcome; an unknown name and a wrong password give the same "invalid" outcome; nothing but a success changes the session, which then names a stored user with exactly that name whose password checks |
| Login.LoginSucceedsIff | bokohacks/Boko-Hacks-2025/routes/login.py:19-21 | login succeeds iff a stored user has that name and that password |
| Login.StoredUserLogsIn | bokohacks/Boko-Hacks-2025/routes/login.py:19-23 | every stored user logs in with their own password, and the session names them |
| Login.RegisterThenLogin | bokohacks/Boko-Hacks-2025/routes/login.py:19-21 | a user registered under a normal-form name logs in with the same name and password |
| Login.UnnormalizedNameNeverLogsIn | bokohacks/Boko-Hacks-2025/routes/login.py:19 | a name that normalisation would change never logs in |
| Login.Logout | bokohacks/Boko-Hacks-2025/routes/login.py:29-35 | no user afterwards; the rest of the session is kept |
| Login.LogoutForgetsLogin | bokohacks/Boko-Hacks-2025/routes/login.py:32 | logout leaves the same session whatever login attempt came before it, including none |
| Notes.ValidateField | bokohacks/Boko-Hacks-2025/models/note.py:51-60 | accepted iff present, not blank, and for a title at most 200 characters; accepted values are kept untrimmed; which error is raised |
| Notes.MakeNote | bokohacks/Boko-Hacks-2025/routes/notes.py:47-52 | a note is built iff both fields validate, title first |
| Notes.NoteRepr | bokohacks/Boko-Hacks-2025/models/note.py:48-49 | the representation shows the whole title up to 20 characters, else its first 20 |
| Notes.ReprIgnoresTitleTail | bokohacks/Boko-Hacks-2025/models/note.py:49 | nothing past the 20th title character reaches the representation |
| Notes.InsertNewest | bokohacks/Boko-Hacks-2025/models/note.py:65 | inserting into a newest-first list keeps it newest first and adds exactly that note |
| Notes.SortNewest | bokohacks/Boko-Hacks-2025/models/note.py:65 | the result is newest first and a permutation of the input |
| Notes.UserNotes | bokohacks/Boko-Hacks-2025/models/note.py:62-65 | exactly the user's notes, each as often as stored, newest first |
| Notes.DeleteOldNotes | bokohacks/Boko-Hacks-2025/models/note.py:67-71 | removes exactly the notes created before now − days and keeps every other note as often as it was stored |
| Notes.DeleteOldNotesIdempotent | bokohacks/Boko-Hacks-2025/models/note.py:70-72 | a second purge with the same cutoff removes nothing |
| Notes.CreateNote | bokohacks/Boko-Hacks-2025/routes/notes.py:26-70 | a note is stored iff the session user exists, both fields are present and not blank, and the escaped title is at most 200 characters; it holds the escaped fields, `now` and the owner's id, under a fresh id; every other outcome stores nothing, with the redirect/404/400 guards; once both fields are present and the user exists, any failure is the 500 of the validator inside the `try`, so a whitespace-only field gives 500, not 400 |
| Notes.EscapeBlank | bokohacks/Boko-Hacks-2025/models/note.py:54-55 | escaped text is blank iff the original is, so the emptiness check sees through escaping |
| Notes.CreatedNoteRendersInput | bokohacks/Boko-Hacks-2025/routes/notes.py:43-44 | a created note renders as exactly the submitted title and content |
| Notes.CreatedNoteListed | bokohacks/Boko-Hacks-2025/routes/notes.py:47-55 | a created note is listed among its owner's notes |
| Notes.StoreNote | bokohacks/Boko-Hacks-2025/routes/notes.py:42-70 | the escaped fields are stored iff neither is blank and the escaped title is at most 200 characters, as a new row with a fresh id, `now` and the owner; any refusal is the 500 with nothing stored |
| Notes.BlankFieldIsServerError | bokohacks/Boko-Hacks-2025/routes/notes.py:39-70 | a non-empty title or content made only of whitespace passes the route's check, is refused by the validator and answers 500 with nothing stored |
| Notes.EscapedTitleOverLimit | bokohacks/Boko-Hacks-2025/routes/notes.py:43-48 | a 51-character title of `<` is rejected as too long, because the limit applies after escaping |
| Notes.Views | bokohacks/Boko-Hacks-2025/routes/notes.py:90 | one view per hit, in order, exposing only id, title and content |
| Notes.SearchHits | bokohacks/Boko-Hacks-2025/routes/notes.py:86-90 | every matching note is in the result and every result is the view of a matching note |
| Notes.SearchNotes | bokohacks/Boko-Hacks-2025/routes/notes.py:72-95 | 401 without a session, 404 for a session naming no stored user; otherwise the views of exactly the notes of any owner whose title or content contains `q` |
| Notes.EmptySearchListsAll | bokohacks/Boko-Hacks-2025/routes/notes.py:82-88 | without `q` every note in the table is returned, other users' included |
| Html.UnescapeEscape | bokohacks/Boko-Hacks-2025/routes/notes.py:43-44 | decoding the escaped text gives back the original |
| Html.EscapeIsInert | bokohacks/Boko-Hacks-2025/routes/notes.py:42-44 | escaped text contains no `<`, `>`, `"` or `'` |
| Html.EscapeLength | bokohacks/Boko-Hacks-2025/routes/notes.py:43-44 | escaping never shortens text, leaves its length alone iff no markup character occurs, and at most quintuples it |
| SafeNames.SecureFilename | bokohacks/Boko-Hacks-2025/routes/files.py:95 | the sanitised name has only `[A-Za-z0-9_.-]`, no separator, and no `.` or `_` at either end |
| SafeNames.SecureFilenameIdempotent | bokohacks/Boko-Hacks-2025/routes/files.py:95-96 | sanitising twice is sanitising once |
| SafeNames.JoinInside | bokohacks/Boko-Hacks-2025/routes/files.py:56-58 | a name without a separator joins directly under the folder |
| SafeNames.SplitExt | Boko-Hacks-2025/models/file.py:75 | base and extension concatenate to the name; the extension is empty or a dot followed by no further dot; it is non-empty exactly when some non-dot character is followed later by a dot |
| SafeNames.SplitExtAtLastDot | Boko-Hacks-2025/models/file.py:75 | when a non-dot character precedes the last dot, the base is the text before that dot and the extension is the rest |
| Files.AllowedFile | bokohacks/Boko-Hacks-2025/routes/files.py:33-38 | true iff the name has a dot and the lower-cased text after the last dot is pdf, png, jpg, jpeg or gif |
| Files.RouteExtensionsMatchPattern | bokohacks/Boko-Hacks-2025/routes/files.py:37 | every listed extension passes the character pattern, so the pattern never changes the outcome |
| Files.AllowedFileFinalExtension | bokohacks/Boko-Hacks-2025/routes/files.py:35-36 | only the final extension counts, in any letter case |
| Files.FinalPngAccepted | bokohacks/Boko-Hacks-2025/routes/files.py:36 | `<anything>.png` is accepted, `a.php.png` included |
| Files.FinalPhpRejected | bokohacks/Boko-Hacks-2025/routes/files.py:36 | `<anything>.php` is rejected, `a.png.php` included |
| Files.SecureFilePath | bokohacks/Boko-Hacks-2025/routes/files.py:56-58 | the path is the upload folder, a separator and the sanitised name |
| Files.SessionUser | bokohacks/Boko-Hacks-2025/routes/files.py:80-85 | a user is found iff the session names a stored user |
| Files.UploadFile | bokohacks/Boko-Hacks-2025/routes/files.py:77-112 | a row is added iff the user exists, a named file is sent, both type checks pass and the path is unused; no session gives 401, an unknown session user 404, a missing or unnamed file 400 and a disallowed name or MIME type 400, each changing nothing; the disk is written before the insert, so also on the 500 |
| Files.SizeNeverChecked | bokohacks/Boko-Hacks-2025/routes/files.py:24 | whether an upload succeeds does not depend on the size of the data |
| Files.UploadKeepsWellFormed | bokohacks/Boko-Hacks-2025/routes/files.py:98-103 | uploads keep ids and paths unique |
| Files.CollisionOverwritesStoredFile | bokohacks/Boko-Hacks-2025/routes/files.py:98-112 | an upload onto a stored path fails with 500 after replacing that file's contents on disk, whoever owns it |
| Files.FindFile | bokohacks/Boko-Hacks-2025/routes/files.py:124 | finds a row iff one has that id |
| Files.DeleteFile | bokohacks/Boko-Hacks-2025/routes/files.py:114-141 | deletes iff the user exists, the row exists and the user owns it; no session gives 401, an unknown session user 404, a missing row 404 and a non-owner 403; only on success are the row and the file removed; a file already missing from disk still succeeds |
| Files.DeleteRemovesExactlyThatRow | bokohacks/Boko-Hacks-2025/routes/files.py:130-131 | a delete keeps exactly the rows with other ids |
| Files.DownloadFile | bokohacks/Boko-Hacks-2025/routes/files.py:143-164 | contents are sent iff the user owns the row and its path is on disk, and they are that file's contents; no session gives 401, an unknown session user 404, a missing row 404, a non-owner 403 and the owner of a row whose file is missing from disk 500 |
| Files.DownloadOnlyOwnFiles | bokohacks/Boko-Hacks-2025/routes/files.py:153-155 | whoever receives a file owns its row |
| FileModel.IsAllowedFile | Boko-Hacks-2025/models/file.py:59-62 | true iff the name has a dot and the lower-cased final extension is png, jpg, jpeg, pdf or txt |
| FileModel.IsAllowedFileFinalExtension | Boko-Hacks-2025/models/file.py:62 | only the final extension counts, in any letter case |
| FileModel.GifOnlyInRoute | Boko-Hacks-2025/models/file.py:35 | `.gif` passes the route's list and not the model's |
| FileModel.TxtOnlyInModel | Boko-Hacks-2025/models/file.py:35 | `.txt` passes the model's list and not the route's |
| FileModel.SuffixedNameInjective | Boko-Hacks-2025/models/file.py:77-79 | different counters give different names |
| FileModel.CandidateInjective | Boko-Hacks-2025/models/file.py:77 | different counters give different paths |
| FileModel.JoinedInside | Boko-Hacks-2025/models/file.py:71 | a joined name without a separator lies directly inside the upload folder |
| FileModel.CandidatesCount | Boko-Hacks-2025/models/file.py:77-79 | the first n suffixed candidates are n different paths, so the loop cannot revisit a path |
| FileModel.FirstFreeCounter | Boko-Hacks-2025/models/file.py:76-78 | the loop ends, at the smallest counter ≥ 1 whose path does not exist |
| FileModel.SuffixedPath | Boko-Hacks-2025/models/file.py:74-80 | a taken name gets `base_k+ext` for the smallest free k ≥ 1, a free path directly inside the folder |
| FileModel.SecureSaveFile | Boko-Hacks-2025/models/file.py:64-83 | a disallowed name raises before anything is saved; otherwise the path lies directly inside the folder and never existed before; the plain path is used when free, else `base_k+ext` for the smallest free k ≥ 1 |
| Admins.ValidateIsDefault | bokohacks/Boko-Hacks-2025/models/admin.py:29-36 | true is refused iff some admin, the record itself included, already is the default; false always passes; the value is returned unchanged |
| Admins.SetIsDefault | bokohacks/Boko-Hacks-2025/models/admin.py:29-36 | a refused update changes nothing; an accepted one changes only that record's flag |
| Admins.AddAdmin | bokohacks/Boko-Hacks-2025/models/admin.py:29-36 | a new default admin is refused iff a default exists; otherwise the record is appended |
| Admins.SetKeepsAtMostOne | bokohacks/Boko-Hacks-2025/models/admin.py:31-35 | an accepted update keeps at most one default |
| Admins.AddKeepsAtMostOne | bokohacks/Boko-Hacks-2025/models/admin.py:31-35 | an accepted insert keeps at most one default |
| Admins.DefaultCannotBeReasserted | bokohacks/Boko-Hacks-2025/models/admin.py:32-35 | setting the current default to default again raises |
| Admins.ApplyKeepsAtMostOne | bokohacks/Boko-Hacks-2025/models/admin.py:29-44 | each update, insert or purge keeps at most one default |
| Admins.SequentialUpdatesKeepAtMostOne | bokohacks/Boko-Hacks-2025/models/admin.py:29-44 | under any sequence of validated updates, inserts and purges the table never holds two defaults |
| Admins.RemoveDefaultAdmins | bokohacks/Boko-Hacks-2025/models/admin.py:38-44 | the purge keeps exactly the non-default admins |
| Admins.RemoveDefaultsCounts | bokohacks/Boko-Hacks-2025/models/admin.py:41-43 | each non-default record is kept as often as it was stored, each default one dropped |
| Admins.RemoveDefaultsLeavesNone | bokohacks/Boko-Hacks-2025/models/admin.py:41-44 | no default admin remains |
| Admins.RemoveDefaultsIdempotent | bokohacks/Boko-Hacks-2025/models/admin.py:41-44 | a second purge changes nothing |
| Admins.DefaultFreeAfterRemove | bokohacks/Boko-Hacks-2025/models/admin.py:32-44 | after the purge any record may be made the default |
| Retirement.EnsureAccount | bokohacks/Boko-Hacks-2025/routes/retirement.py:51-55 | a missing account is created with funds 10000 and balance 0; existing accounts are untouched |
| Retirement.GetBalance | bokohacks/Boko-Hacks-2025/routes/retirement.py:43-57 | 401 with nothing changed without a session; otherwise shows the (lazily created) account |
| Retirement.AmountValue | bokohacks/Boko-Hacks-2025/routes/retirement.py:76-83 | numbers compare as themselves and booleans as 0/1; anything else makes the comparison raise |
| Retirement.Contribute | bokohacks/Boko-Hacks-2025/routes/retirement.py:59-106 | 401 without a session; a non-object body gives 500 with nothing changed; otherwise the account is created if missing, no other account changes, and the contribution happens iff the amount is a positive number within the funds, moving it from funds to balance with half of it added as the match; an amount that is neither a number nor a boolean gives 500 after the account is created |
| Retirement.Reset | bokohacks/Boko-Hacks-2025/routes/retirement.py:108-132 | 401 without a session; 404 with nothing created for a missing account; otherwise funds 10000 and balance 0 |
| Retirement.ContributeMovesFunds | bokohacks/Boko-Hacks-2025/routes/retirement.py:90-95 | a valid amount a gives funds − a and balance + 1.5·a, with a match of a/2 |
| Retirement.RefusedAmountChangesNothing | bokohacks/Boko-Hacks-2025/routes/retirement.py:76-88 | an amount ≤ 0 or above the funds gives 400 and leaves the (lazily created) account as it was |
| Retirement.MissingAmountRefused | bokohacks/Boko-Hacks-2025/routes/retirement.py:65-81 | a body without `amount` counts as 0 and is refused |
| Retirement.ContributeKeepsSolvent | bokohacks/Boko-Hacks-2025/routes/retirement.py:83-95 | contributions never drive funds or balance below zero |
| Retirement.BalanceAndResetKeepSolvent | bokohacks/Boko-Hacks-2025/routes/retirement.py:43-124 | balance reads and resets keep every account non-negative |
| Retirement.ContributeKeepsWorth | bokohacks/Boko-Hacks-2025/routes/retirement.py:91-95 | 1.5 × funds + balance is the same before and after a contribution |
| Retirement.ContributionsAdd | bokohacks/Boko-Hacks-2025/routes/retirement.py:91-95 | contributing a and then b leaves the ledger as contributing a + b once |
| Retirement.ResetIdempotent | bokohacks/Boko-Hacks-2025/routes/retirement.py:123-124 | resetting twice is resetting once |
| Retirement.ResetAfterContribute | bokohacks/Boko-Hacks-2025/routes/retirement.py:94-124 | a reset undoes any contribution to an existing account |
| News.ApiCategory | bokohacks/Boko-Hacks-2025/routes/news.py:94-97 | the upstream category is the mapped one for a known label and business otherwise, always one of the mapping's values |
| News.CategoryCases | bokohacks/Boko-Hacks-2025/routes/news.py:47-51 | world maps to general, technology and business to themselves, anything else to business |
| News.TransformDefaults | bokohacks/Boko-Hacks-2025/routes/news.py:139-143 | an article without fields gives 'No Title', 'No content available', '', '#', '' |
| News.TransformKeepsGivenFields | bokohacks/Boko-Hacks-2025/routes/news.py:139-143 | fields that are present are passed on as they are |
| News.TransformAll | bokohacks/Boko-Hacks-2025/routes/news.py:137-144 | one item per article, in order, iff every article is an object |
| News.TransformAllAppend | bokohacks/Boko-Hacks-2025/routes/news.py:124 | projecting a concatenation is concatenating the projections |
| News.UpstreamArticles | bokohacks/Boko-Hacks-2025/routes/news.py:107-108 | an object body whose `articles` (default empty list) is a list keeps its first 10 elements, and a string keeps its first 10 characters; any other body or `articles` value raises |
| News.ShowInternalCases | bokohacks/Boko-Hacks-2025/routes/news.py:117 | `true` and `1` both enter the internal-news branch; the string "true" and a missing flag do not |
| News.InternalNewsAreObjects | bokohacks/Boko-Hacks-2025/routes/news.py:56-78 | the three internal articles project to three items |
| News.FetchNews | bokohacks/Boko-Hacks-2025/routes/news.py:89-158 | network failure gives 500 and a non-200 upstream status that status; an unparsable filter gives 400; a filter that is not an object, or that sets the internal flag, gives 500 whoever asks; an upstream 200 whose body is missing or has no readable `articles` gives 500; otherwise, without the internal flag, the answer is the projection of the first 10 upstream articles under the requested label, or 500 when an article is not an object |
| News.OnlyMappedCategoryFetched | bokohacks/Boko-Hacks-2025/routes/news.py:97-103 | the response depends on the upstream only through the mapped category's URL |
| News.DefaultFilterShowsUpstreamOnly | bokohacks/Boko-Hacks-2025/routes/news.py:110-117 | without a filter, for any upstream object whose `articles` is a list, the items are exactly the projected first 10 upstream articles |
| News.AdminInternalRequestFails | bokohacks/Boko-Hacks-2025/routes/news.py:117-121 | as written, even the admin asking for internal news gets a 500 |
| News.FetchNewsIntended | bokohacks/Boko-Hacks-2025/routes/news.py:116-124 | the same guards; with the internal flag set, anyone but the admin gets 403 and the admin's success lists the internal articles ahead of the upstream ones; without it, the answer is the one the written handler gives; an upstream 200 without readable `articles` gives 500 |
| News.IntendedMatchesWrittenWithoutFlag | bokohacks/Boko-Hacks-2025/routes/news.py:116-124 | a request whose filter does not set the internal flag gets the same answer from the corrected handler as from the one written |
| News.AdminSeesInternalFirst | bokohacks/Boko-Hacks-2025/routes/news.py:121-124 | with `session` imported, the admin gets the three internal items ahead of the upstream ones |
| News.OthersRefusedInternal | bokohacks/Boko-Hacks-2025/routes/news.py:121-123 | with `session` imported, anyone else asking for internal news gets 403 |

## Left out

- Templates, flash messages, redirects and response bodies. Outcomes are named and mapped to their HTTP status only.
- Logging, `to_dict`, `__repr__` of `User` and `Admin`, and timestamp formatting.
- `generate_password_hash` / `check_password_hash`. They are an ideal salted digest, and a hash checks exactly the password it was made from.
- The reCAPTCHA siteverify request (bokohacks/Boko-Hacks-2025/routes/register.py:70-76). Its verdict is a boolean input.
- The upstream news request. It is the `fetch` parameter, with its timeout folded into `Unreachable`. Parsing the upstream body and the `filter` parameter as JSON is an input too.
- `mimetypes.guess_type`. It is an input.
- The reads and writes of uploaded files beyond a map from path to bytes. Folder creation is left out too.
- `SafeNames.SecureFilename` does not model werkzeug's NFKD normalisation or Windows device names. It drops every non-ASCII character instead.
- `Text.Lower`, `Text.Upper`, `IsAsciiDigit` and `\d` are ASCII-only. Python's are Unicode-aware.
- The SQL `LIKE` of the search is substring containment. SQLite's case-insensitivity and the `%` and `_` wildcards inside `q` are not modelled.
- `Notes.SearchNotes` states which notes appear, not their order. The model returns table order, which SQLite does not promise.
- `Notes.SortNewest` orders notes with equal timestamps in one particular way. SQL leaves ties unordered.
- Time is integer seconds supplied by the caller. `create_note` uses local time and `delete_old_notes` uses UTC, and that offset is not modelled.
- Retirement amounts are exact reals. Float rounding is not modelled, and neither is the integer/float distinction in JSON.
- The ledger's `funds` and `balance_401k` columns do not exist on the `User` model. The ledger is its own map from username to account.
- `Retirement.Contribute` does not model the non-finite numbers `NaN`, `Infinity` and `-Infinity`, which Python's `json` accepts and `JNum` cannot hold. A `NaN` amount passes both `amount <= 0` and `amount > user.funds` (bokohacks/Boko-Hacks-2025/routes/retirement.py:76,83), because every comparison with `NaN` is false, and it then turns funds and balance into `NaN`. `Retirement.ContributeKeepsSolvent` and `Retirement.ContributeKeepsWorth` hold only for finite amounts.
- `Registration.ScoreStatus` does not model non-finite scores. `{"score": Infinity}` answers 200 and `{"score": NaN}` answers 400 (Boko-Hacks-2025/routes/register.py:31).
- `Registration.VerifyCaptchaStatus` answers 400 for a request with no JSON body. Flask's `get_json` may instead answer that request itself with 400 or 415, depending on the Flask version, before the handler runs.
- `Retirement.Contribute` takes the decoded JSON body. A request without a JSON body is answered by Flask's `get_json` before the handler's logic runs (400 or 415, depending on the Flask version), and that is not modelled.
- Commit failures are not modelled: `SQLAlchemyError` in contribute and reset, and exceptions inside the delete handler's `try`.
- Disk errors on upload other than the unique-path violation are not modelled.
- `Files.DownloadFile` reads the stored path directly. The `dirname`/`basename` split and `send_from_directory`'s own path checks are not modelled.
- `FileModel.SecureSaveFile` returns the chosen path against the set of existing paths. The write itself is not modelled.
- `Admins.ValidateIsDefault` takes a boolean. Truthy non-boolean values assigned to `is_default`, SQLAlchemy autoflush, and the unique `user_id` column with its cascade are not modelled.
- The files listing route, the 401k dashboard and the news page only render templates.
- Boko-Hacks-2025/app.py is wiring and configuration, and is not part of this model; its own extension list is not used by these handlers. The about, hub, home and apps routes only dispatch to templates.
- Concurrency and transaction isolation. Each request runs alone.

## Findings

| source | as written | input that shows it | evidently intended | confidence | as-written member | corrected member |
|---|---|---|---|---|---|---|
| bokohacks/Boko-Hacks-2025/routes/news.py:121 | `session` is used but never imported (line 36), so the admin check raises NameError and the catch-all at line 156 answers 500 | filter `{"showInternal": true}`, session user `admin`, upstream 200 with a list of article objects | the admin gets the internal articles ahead of the upstream ones; any other user gets 403 | high; not executed | News.AdminInternalRequestFails | News.AdminSeesInternalFirst |

The as-written handler is `News.FetchNews`. The corrected one is `News.FetchNewsIntended`, whose refusal of other users is `News.OthersRefusedInternal`.

=== FILE: admin.dfy ===
/** The `Admin` model of bokohacks/Boko-Hacks-2025/models/admin.py: the
    validator that lets at most one admin carry the default flag, and the
    purge of default admins. The table is a sequence of records; an update
    that the validator rejects leaves the table as it was. */
module Admins {
  import opened Common

  datatype Admin = Admin(id: nat, userId: nat, isDefault: bool)

  /** The ValueError the validator raises. */
  datatype AdminError = DefaultTaken

  predicate IsNotDefault(a: Admin) {
    !a.isDefault
  }

  predicate HasDefault(admins: seq<Admin>) {
    exists i :: 0 <= i < |admins| && admins[i].isDefault
  }

  /** The invariant the validator is meant to keep. */
  predicate AtMostOneDefault(admins: seq<Admin>) {
    forall i, j :: 0 <= i < |admins| && 0 <= j < |admins| && admins[i].isDefault && admins[j].isDefault ==> i == j
  }

  /** `validate_is_default`: a true value is refused while any admin in the
      table, the record being updated included, is already the default; a
      false value always passes. */
  function ValidateIsDefault(admins: seq<Admin>, value: bool): (r: Result<bool, AdminError>)
    ensures r.Ok? <==> !value || forall a :: a in admins ==> !a.isDefault
    ensures r.Ok? ==> r.value == value
  {
    if value && HasDefault(admins) then Err(DefaultTaken) else Ok(value)
  }

  /** Assigning `is_default` on the record at index `k`. */
  function SetIsDefault(admins: seq<Admin>, k: nat, value: bool): (r: Result<seq<Admin>, AdminError>)
    requires k < |admins|
    ensures r.Err? <==> value && exists i :: 0 <= i < |admins| && admins[i].isDefault
    ensures r.Ok? ==> |r.value| == |admins| && r.value[k] == admins[k].(isDefault := value)
    ensures r.Ok? ==> forall i :: 0 <= i < |admins| && i != k ==> r.value[i] == admins[i]
  {
    match ValidateIsDefault(admins, value)
    case Err(e) => Err(e)
    case Ok(v) => Ok(admins[k := admins[k].(isDefault := v)])
  }

  /** Inserting a new record; the validator runs on its `is_default` too. */
  function AddAdmin(admins: seq<Admin>, admin: Admin): (r: Result<seq<Admin>, AdminError>)
    ensures r.Err? <==> admin.isDefault && exists i :: 0 <= i < |admins| && admins[i].isDefault
    ensures r.Ok? ==> r.value == admins + [admin]
  {
    match ValidateIsDefault(admins, admin.isDefault)
    case Err(e) => Err(e)
    case Ok(_) => Ok(admins + [admin])
  }

  /** A validated update keeps at most one default. */
  lemma SetKeepsAtMostOne(admins: seq<Admin>, k: nat, value: bool)
    requires k < |admins| && AtMostOneDefault(admins)
    requires SetIsDefault(admins, k, value).Ok?
    ensures AtMostOneDefault(SetIsDefault(admins, k, value).value)
  {
    var r := SetIsDefault(admins, k, value).value;
    if value {
      assert forall i :: 0 <= i < |admins| ==> !admins[i].isDefault;
      assert forall i :: 0 <= i < |r| && r[i].isDefault ==> i == k;
    }
  }

  /** A validated insert keeps at most one default. */
  lemma AddKeepsAtMostOne(admins: seq<Admin>, admin: Admin)
    requires AtMostOneDefault(admins)
    requires AddAdmin(admins, admin).Ok?
    ensures AtMostOneDefault(AddAdmin(admins, admin).value)
  {
    var r := AddAdmin(admins, admin).value;
    assert forall i :: 0 <= i < |admins| ==> r[i] == admins[i];
  }

  /** The record that already is the default cannot be set to default
      again: the validator finds the record itself. */
  lemma DefaultCannotBeReasserted(admins: seq<Admin>, k: nat)
    requires k < |admins| && admins[k].isDefault
    ensures SetIsDefault(admins, k, true) == Err(DefaultTaken)
  {
  }

  /** The updates a caller can make one after another. */
  datatype AdminOp =
    | SetDefault(index: nat, value: bool)
    | Add(admin: Admin)
    | RemoveDefaults

  /** Applies one update; a rejected update, or one naming no record,
      changes nothing. */
  function Apply(admins: seq<Admin>, op: AdminOp): seq<Admin> {
    match op
    case SetDefault(k, v) =>
      if k < |admins| && SetIsDefault(admins, k, v).Ok? then SetIsDefault(admins, k, v).value else admins
    case Add(a) =>
      if AddAdmin(admins, a).Ok? then AddAdmin(admins, a).value else admins
    case RemoveDefaults =>
      RemoveDefaultAdmins(admins)
  }

  /** Every single update keeps at most one default. */
  lemma ApplyKeepsAtMostOne(admins: seq<Admin>, op: AdminOp)
    requires AtMostOneDefault(admins)
    ensures AtMostOneDefault(Apply(admins, op))
  {
    match op
    case SetDefault(k, v) =>
      if k < |admins| && SetIsDefault(admins, k, v).Ok? {
        SetKeepsAtMostOne(admins, k, v);
      }
    case Add(a) =>
      if AddAdmin(admins, a).Ok? {
        AddKeepsAtMostOne(admins, a);
      }
    case RemoveDefaults =>
      RemoveDefaultsLeavesNone(admins);
  }

  function ApplyAll(admins: seq<Admin>, ops: seq<AdminOp>): seq<Admin>
    decreases |ops|
  {
    if |ops| == 0 then admins else ApplyAll(Apply(admins, ops[0]), ops[1..])
  }

  /** Under any sequence of validated updates the table never holds two
      default admins. */
  lemma {:induction false} SequentialUpdatesKeepAtMostOne(admins: seq<Admin>, ops: seq<AdminOp>)
    requires AtMostOneDefault(admins)
    ensures AtMostOneDefault(ApplyAll(admins, ops))
    decreases |ops|
  {
    if |ops| > 0 {
      ApplyKeepsAtMostOne(admins, ops[0]);
      SequentialUpdatesKeepAtMostOne(Apply(admins, ops[0]), ops[1..]);
    }
  }

  /** `remove_default_admin`: deletes the default admins and only them. */
  function RemoveDefaultAdmins(admins: seq<Admin>): (r: seq<Admin>)
    ensures forall a :: a in r <==> a in admins && !a.isDefault
  {
    Filter(admins, IsNotDefault)
  }

  /** Each kept record is kept as often as it was there. */
  lemma RemoveDefaultsCounts(admins: seq<Admin>)
    ensures forall a :: multiset(RemoveDefaultAdmins(admins))[a] == if a.isDefault then 0 else multiset(admins)[a]
  {
    FilterCounts(admins, IsNotDefault);
  }

  /** After the purge no default admin is left. */
  lemma RemoveDefaultsLeavesNone(admins: seq<Admin>)
    ensures !HasDefault(RemoveDefaultAdmins(admins))
  {
    var r := RemoveDefaultAdmins(admins);
    assert forall i :: 0 <= i < |r| ==> r[i] in r;
  }

  /** A second purge removes nothing more. */
  lemma RemoveDefaultsIdempotent(admins: seq<Admin>)
    ensures RemoveDefaultAdmins(RemoveDefaultAdmins(admins)) == RemoveDefaultAdmins(admins)
  {
    FilterIdempotent(admins, IsNotDefault);
  }

  /** After the purge any record may become the default. */
  lemma DefaultFreeAfterRemove(admins: seq<Admin>, k: nat)
    requires k < |RemoveDefaultAdmins(admins)|
    ensures SetIsDefault(RemoveDefaultAdmins(admins), k, true).Ok?
  {
    RemoveDefaultsLeavesNone(admins);
  }
}

=== FILE: common.dfy ===
/** Shared vocabulary of the model: optional values, results, the JSON values
    that cross the HTTP boundary, the per-request session and the rule by
    which the database hands out primary keys. */
module Common {

  datatype Option<+T> = None | Some(value: T)

  /** A Python call that either returns a value or raises. */
  datatype Result<+T, +E> = Ok(value: T) | Err(error: E)

  newtype byte = x: int | 0 <= x < 256

  /** A decoded JSON value as Python's `json` module produces it: objects
      become dicts, numbers (int or float) become `JNum`. */
  datatype Json =
    | JNull
    | JBool(b: bool)
    | JNum(n: real)
    | JStr(s: string)
    | JArr(items: seq<Json>)
    | JObj(fields: map<string, Json>)

  /** Python truthiness of a decoded JSON value (`not data`). */
  predicate Truthy(j: Json) {
    match j
    case JNull => false
    case JBool(b) => b
    case JNum(n) => n != 0.0
    case JStr(s) => s != ""
    case JArr(xs) => xs != []
    case JObj(m) => m != map[]
  }

  /** The Flask session cookie, reduced to the two keys the core reads:
      the logged-in username and the pending text CAPTCHA. */
  datatype Session = Session(user: Option<string>, captchaText: Option<string>)

  /** A form field that is present and non-empty: `if not value` fails
      for a missing field and for the empty string. */
  predicate Present(v: Option<string>) {
    v.Some? && v.value != ""
  }

  /** The rows of `s` that satisfy `p`, in order: a query's WHERE clause
      over a table. */
  function Filter<T(!new)>(s: seq<T>, p: T -> bool): (r: seq<T>)
    ensures |r| <= |s|
    ensures forall x :: x in r <==> x in s && p(x)
    decreases |s|
  {
    if |s| == 0 then []
    else if p(s[0]) then [s[0]] + Filter(s[1..], p) else Filter(s[1..], p)
  }

  /** `Filter` keeps every selected row as often as it occurs and drops
      every other row. */
  lemma {:induction false} FilterCounts<T(!new)>(s: seq<T>, p: T -> bool)
    ensures forall x :: multiset(Filter(s, p))[x] == if p(x) then multiset(s)[x] else 0
    decreases |s|
  {
    if |s| > 0 {
      FilterCounts(s[1..], p);
      assert s == [s[0]] + s[1..];
    }
  }

  /** Filtering twice by the same condition is filtering once. */
  lemma {:induction false} FilterIdempotent<T(!new)>(s: seq<T>, p: T -> bool)
    ensures Filter(Filter(s, p), p) == Filter(s, p)
    decreases |s|
  {
    if |s| > 0 {
      FilterIdempotent(s[1..], p);
      if p(s[0]) {
        var t := [s[0]] + Filter(s[1..], p);
        assert t[0] == s[0] && t[1..] == Filter(s[1..], p);
      }
    }
  }

  /** The key a new row receives: one more than the largest key in use, the
      rule SQLite follows for an INTEGER PRIMARY KEY column. */
  function NextId<T>(rows: seq<T>, id: T -> nat): (r: nat)
    ensures r > 0
    ensures forall i :: 0 <= i < |rows| ==> id(rows[i]) < r
  {
    if |rows| == 0 then 1
    else
      var rest := NextId(rows[..|rows| - 1], id);
      var last := id(rows[|rows| - 1]);
      if last < rest then rest else last + 1
  }
}

=== FILE: credentials.dfy ===
/** The `User` model: username normalisation, the password policy regex,
    `set_password` / `check_password`, and the `users` table with its
    unique username column. */
module Credentials {
  import opened Common
  import opened Text

  const MinUsernameLength: nat := 3
  const MaxUsernameLength: nat := 150
  const MinPasswordLength: nat := 8
  /** The special characters of the policy regex, `[@$!%*?&]`. */
  const PasswordSpecials: string := "@$!%*?&"

  /** What `generate_password_hash` stores, seen as an ideal salted digest:
      `check_password_hash` accepts exactly the password it was made from. */
  datatype PasswordHash = PasswordHash(salt: nat, password: string)

  /** A row of `users`. `passwordHash` is `None` between construction and
      a successful `set_password`. */
  datatype User = User(id: nat, username: string, passwordHash: Option<PasswordHash>)

  datatype CredentialError =
    | UsernameMissing   // `None.strip()` raises AttributeError
    | UsernameLength    // ValueError from `validate_username`
    | PasswordMissing   // `re.match(pattern, None)` raises TypeError
    | WeakPassword      // ValueError from `set_password`
    | UsernameInUse     // IntegrityError from the unique column at commit

  // ---------------------------------------------------------------- usernames

  /** `username.strip().lower()`. */
  function NormalizeUsername(raw: string): string {
    Lower(Strip(raw))
  }

  /** What every stored username looks like. */
  predicate IsNormalizedUsername(u: string) {
    && IsStripped(u)
    && (forall i :: 0 <= i < |u| ==> !IsAsciiUpper(u[i]))
    && MinUsernameLength <= |u| <= MaxUsernameLength
  }

  /** The `@validates("username")` hook. */
  function ValidateUsername(raw: Option<string>): (r: Result<string, CredentialError>)
    ensures raw.None? ==> r == Err(UsernameMissing)
    ensures raw.Some? ==> (r.Ok? <==> MinUsernameLength <= |Strip(raw.value)| <= MaxUsernameLength)
    ensures raw.Some? && r.Err? ==> r.error == UsernameLength
    ensures r.Ok? ==> IsNormalizedUsername(r.value)
    ensures r.Ok? ==> r.value == NormalizeUsername(raw.value)
  {
    match raw
    case None => Err(UsernameMissing)
    case Some(s) =>
      var name := NormalizeUsername(s);
      if |name| < MinUsernameLength || |name| > MaxUsernameLength then Err(UsernameLength)
      else
        StripShape(s);
        StrippedLower(Strip(s));
        Ok(name)
  }

  /** An accepted username is accepted again unchanged. */
  lemma ValidateUsernameIdempotent(raw: string, v: string)
    requires ValidateUsername(Some(raw)) == Ok(v)
    ensures ValidateUsername(Some(v)) == Ok(v)
  {
    var s := Strip(raw);
    assert v == Lower(s);
    StripShape(raw);
    StrippedLower(s);
    StripStripped(v);
    LowerIdempotent(s);
    assert NormalizeUsername(v) == v;
    assert |Strip(v)| == |v|;
  }

  /** A stored username normalises to itself. */
  lemma NormalizedFixpoint(u: string)
    requires IsNormalizedUsername(u)
    ensures NormalizeUsername(u) == u
  {
    calc {
      NormalizeUsername(u);
      Lower(Strip(u));
      { StripStripped(u); }
      Lower(u);
      { LowerNoUpper(u); }
      u;
    }
  }

  /** Inputs that differ only in ASCII case and surrounding whitespace are
      normalised to the same username, so the unique column sees one
      identity. */
  lemma SameIdentity(pre: string, a: string, post: string, b: string)
    requires IsBlank(pre) && IsBlank(post)
    requires Lower(a) == Lower(b)
    ensures ValidateUsername(Some(pre + a + post)) == ValidateUsername(Some(b))
  {
    calc {
      NormalizeUsername(pre + a + post);
      { StripPadded(pre, a, post); }
      Lower(Strip(a));
      { StripLower(a); }
      Strip(Lower(a));
      Strip(Lower(b));
      { StripLower(b); }
      NormalizeUsername(b);
    }
    SameNormalFormSameResult(pre + a + post, b);
  }

  /** `validate_username` looks at its input only through the normal form. */
  lemma SameNormalFormSameResult(x: string, y: string)
    requires NormalizeUsername(x) == NormalizeUsername(y)
    ensures ValidateUsername(Some(x)) == ValidateUsername(Some(y))
  {
  }

  // ---------------------------------------------------------------- passwords

  predicate IsPasswordSpecial(c: char) {
    c in PasswordSpecials
  }

  /** `[A-Za-z\d@$!%*?&]`. */
  predicate IsPasswordChar(c: char) {
    IsAsciiLetter(c) || IsAsciiDigit(c) || IsPasswordSpecial(c)
  }

  datatype CharClass = Letter | Digit | Special

  predicate InClass(c: char, k: CharClass) {
    match k
    case Letter => IsAsciiLetter(c)
    case Digit => IsAsciiDigit(c)
    case Special => IsPasswordSpecial(c)
  }

  /** Some character of `p` is in class `k`. */
  predicate HasClass(p: string, k: CharClass) {
    exists i :: 0 <= i < |p| && InClass(p[i], k)
  }

  predicate AllPasswordChars(p: string) {
    forall i :: 0 <= i < |p| ==> IsPasswordChar(p[i])
  }

  /** The policy in plain words: at least eight characters, all from the
      allowed class, with a letter, a digit and a special character. */
  predicate MeetsPolicy(p: string) {
    && |p| >= MinPasswordLength
    && AllPasswordChars(p)
    && HasClass(p, Letter) && HasClass(p, Digit) && HasClass(p, Special)
  }

  /** The lookahead `(?=.*[k])` at position 0: `.` does not match a line
      break, so only the characters before the first `\n` are searched. */
  predicate LookaheadFinds(s: string, k: CharClass)
    decreases |s|
  {
    |s| > 0 && s[0] != '\n' && (InClass(s[0], k) || LookaheadFinds(s[1..], k))
  }

  /** How many characters the greedy `[A-Za-z\d@$!%*?&]{8,}` consumes
      before it meets one outside the class. */
  function ClassRun(s: string): (n: nat)
    ensures n <= |s|
    ensures AllPasswordChars(s[..n])
    ensures n < |s| ==> !IsPasswordChar(s[n])
    decreases |s|
  {
    if |s| > 0 && IsPasswordChar(s[0]) then
      var n := 1 + ClassRun(s[1..]);
      assert s[..n] == [s[0]] + s[1..][..n - 1];
      n
    else 0
  }

  /** Python's `$`: the end of the string, or just before a final `\n`. */
  predicate AtEnd(s: string, i: nat) {
    i == |s| || (i == |s| - 1 && s[i] == '\n')
  }

  /** The regex as the `re` engine runs it. Backtracking the repetition to
      fewer than `ClassRun(p)` characters cannot help, since `$` never
      matches just before a class character. */
  predicate RegexMatches(p: string) {
    && LookaheadFinds(p, Letter) && LookaheadFinds(p, Digit) && LookaheadFinds(p, Special)
    && ClassRun(p) >= MinPasswordLength && AtEnd(p, ClassRun(p))
  }

  /** `User.validate_password`: `re.match` of
      `^(?=.*[A-Za-z])(?=.*\d)(?=.*[@$!%*?&])[A-Za-z\d@$!%*?&]{8,}$`.
      It accepts exactly the passwords that meet the policy, and those
      followed by one `\n`. */
  function ValidatePassword(p: string): (ok: bool)
    ensures ok <==> MeetsPolicy(p) || (|p| > 0 && p[|p| - 1] == '\n' && MeetsPolicy(p[..|p| - 1]))
  {
    PasswordRegexMeaning(p);
    RegexMatches(p)
  }

  /** Within a line of length `n`, the lookahead finds a `k` character
      exactly when one occurs among the first `n` characters. */
  lemma {:induction false} LookaheadWithinLine(s: string, n: nat, k: CharClass)
    requires n <= |s|
    requires forall i :: 0 <= i < n ==> s[i] != '\n'
    requires n == |s| || s[n] == '\n'
    ensures LookaheadFinds(s, k) <==> HasClass(s[..n], k)
    decreases n
  {
    if n > 0 {
      LookaheadWithinLine(s[1..], n - 1, k);
      assert s[..n] == [s[0]] + s[1..][..n - 1];
      var t := s[1..][..n - 1];
      if HasClass(t, k) {
        var i :| 0 <= i < |t| && InClass(t[i], k);
        assert s[..n][i + 1] == t[i];
      }
      if HasClass(s[..n], k) && !InClass(s[0], k) {
        var i :| 0 <= i < n && InClass(s[..n][i], k);
        assert i > 0 && t[i - 1] == s[..n][i];
      }
    } else {
      assert s[..n] == [];
    }
  }

  lemma LookaheadsWithinLine(s: string, n: nat)
    requires n <= |s|
    requires forall i :: 0 <= i < n ==> s[i] != '\n'
    requires n == |s| || s[n] == '\n'
    ensures (LookaheadFinds(s, Letter) && LookaheadFinds(s, Digit) && LookaheadFinds(s, Special))
            <==> (HasClass(s[..n], Letter) && HasClass(s[..n], Digit) && HasClass(s[..n], Special))
  {
    LookaheadWithinLine(s, n, Letter);
    LookaheadWithinLine(s, n, Digit);
    LookaheadWithinLine(s, n, Special);
  }

  lemma ClassCharsNoBreak(s: string, n: nat)
    requires n <= |s| && AllPasswordChars(s[..n])
    ensures forall i :: 0 <= i < n ==> s[i] != '\n'
  {
    forall i | 0 <= i < n ensures s[i] != '\n' {
      assert s[..n][i] == s[i];
      assert IsPasswordChar(s[i]);
    }
  }

  /** The operational reading of the regex agrees with the plain policy,
      with the one twist that `$` lets a single trailing `\n` through. */
  lemma PasswordRegexMeaning(p: string)
    ensures RegexMatches(p)
            <==> (MeetsPolicy(p) || (|p| > 0 && p[|p| - 1] == '\n' && MeetsPolicy(p[..|p| - 1])))
  {
    var run := ClassRun(p);
    ClassCharsNoBreak(p, run);
    if run == |p| {
      assert p[..run] == p;
      LookaheadsWithinLine(p, run);
      if |p| > 0 {
        assert p[..run][|p| - 1] == p[|p| - 1];
      }
    } else if run == |p| - 1 && p[run] == '\n' {
      LookaheadsWithinLine(p, run);
      assert !IsPasswordChar(p[run]);
      assert !AllPasswordChars(p);
    } else {
      NoMatchPastRun(p, run);
    }
  }

  lemma NoMatchPastRun(p: string, run: nat)
    requires run == ClassRun(p)
    requires !(run == |p|) && !(run == |p| - 1 && p[run] == '\n')
    ensures !RegexMatches(p)
    ensures !MeetsPolicy(p)
    ensures !(|p| > 0 && p[|p| - 1] == '\n' && MeetsPolicy(p[..|p| - 1]))
  {
    assert !AtEnd(p, run);
    NotAllPasswordChars(p, run);
    if |p| > 0 && p[|p| - 1] == '\n' {
      var q := p[..|p| - 1];
      assert q[run] == p[run];
      NotAllPasswordChars(q, run);
    }
  }

  lemma NotAllPasswordChars(p: string, i: nat)
    requires i < |p| && !IsPasswordChar(p[i])
    ensures !AllPasswordChars(p) && !MeetsPolicy(p)
  {
  }

  /** A character outside the class anywhere but in the final position,
      or a final character outside the class other than `\n`, makes the
      regex fail whatever the length. */
  lemma ForeignCharRejected(p: string, i: nat)
    requires i < |p| && !IsPasswordChar(p[i])
    requires !(i == |p| - 1 && p[i] == '\n')
    ensures !ValidatePassword(p)
  {
    assert !AllPasswordChars(p);
    if |p| > 0 && p[|p| - 1] == '\n' {
      assert p[..|p| - 1][i] == p[i];
    }
  }

  /** The trailing line break that `$` lets through: a password that
      meets the policy is still accepted with one `\n` appended, though the
      result itself contains a character outside the class; a second `\n`
      is rejected. */
  lemma TrailingLineBreakAccepted(q: string)
    requires MeetsPolicy(q)
    ensures ValidatePassword(q + "\n") && !MeetsPolicy(q + "\n")
    ensures !ValidatePassword(q + "\n\n")
  {
    var p := q + "\n";
    assert p[..|p| - 1] == q;
    NotAllPasswordChars(p, |q|);
    var p2 := q + "\n\n";
    assert p2[|q|] == '\n';
    ForeignCharRejected(p2, |q|);
  }

  /** One password the policy accepts. */
  lemma PolicyExample()
    ensures MeetsPolicy("Passw0rd!")
  {
    var q := "Passw0rd!";
    assert InClass(q[0], Letter) && InClass(q[5], Digit) && InClass(q[8], Special);
    assert AllPasswordChars(q) by {
      forall i | 0 <= i < |q| ensures IsPasswordChar(q[i]) {
      }
    }
  }

  // ------------------------------------------------------------ set/check

  /** `check_password`: the stored hash accepts exactly its own password. */
  predicate CheckPassword(u: User, password: string) {
    u.passwordHash.Some? && u.passwordHash.value.password == password
  }

  /** `set_password`: raises on a password the policy rejects (the record
      keeps its previous hash), otherwise stores a fresh salted hash. */
  function SetPassword(u: User, password: Option<string>, salt: nat): (r: Result<User, CredentialError>)
    ensures password.None? ==> r == Err(PasswordMissing)
    ensures password.Some? ==> (r.Ok? <==> ValidatePassword(password.value))
    ensures password.Some? && r.Err? ==> r.error == WeakPassword
    ensures r.Ok? ==> r.value.id == u.id && r.value.username == u.username
    ensures r.Ok? ==> forall q :: CheckPassword(r.value, q) <==> Some(q) == password
  {
    match password
    case None => Err(PasswordMissing)
    case Some(p) =>
      if !ValidatePassword(p) then Err(WeakPassword)
      else Ok(u.(passwordHash := Some(PasswordHash(salt, p))))
  }

  // ---------------------------------------------------------------- table

  function UserId(u: User): nat {
    u.id
  }

  predicate UsernameTaken(users: seq<User>, name: string) {
    exists i :: 0 <= i < |users| && users[i].username == name
  }

  /** The invariant of the `users` table: unique keys, unique normalised
      usernames, and a hash on every row. */
  predicate UsersWellFormed(users: seq<User>) {
    && (forall i, j :: 0 <= i < j < |users| ==> users[i].id != users[j].id)
    && (forall i, j :: 0 <= i < j < |users| ==> users[i].username != users[j].username)
    && (forall i :: 0 <= i < |users| ==> users[i].passwordHash.Some?)
    && (forall i :: 0 <= i < |users| ==> IsNormalizedUsername(users[i].username))
  }

  /** `User.query.filter_by(username=name).first()`; `None` compares as SQL
      NULL and matches no row. */
  function FindUser(users: seq<User>, name: Option<string>): (r: Option<User>)
    ensures r.Some? <==> name.Some? && UsernameTaken(users, name.value)
    ensures r.Some? ==> r.value in users && r.value.username == name.value
    ensures r.Some? ==> exists i :: 0 <= i < |users| && users[i] == r.value
                                    && forall j :: 0 <= j < i ==> users[j].username != name.value
    decreases |users|
  {
    if name.None? || |users| == 0 then None
    else if users[0].username == name.value then Some(users[0])
    else
      var r := FindUser(users[1..], name);
      assert forall i :: 1 <= i < |users| ==> users[1..][i - 1] == users[i];
      if r.Some? then
        var i :| 0 <= i < |users[1..]| && users[1..][i] == r.value
                 && forall j :: 0 <= j < i ==> users[1..][j].username != name.value;
        assert users[i + 1] == r.value;
        r
      else r
  }

  /** `User(username=...)`, `set_password`, `db.session.add` and `commit`:
      the unique column rejects a username already stored. */
  function NewUser(users: seq<User>, username: Option<string>, password: Option<string>, salt: nat)
    : (r: Result<User, CredentialError>)
    ensures r.Ok? <==> && username.Some? && password.Some?
                       && MinUsernameLength <= |Strip(username.value)| <= MaxUsernameLength
                       && ValidatePassword(password.value)
                       && !UsernameTaken(users, NormalizeUsername(username.value))
    ensures r.Ok? ==> && r.value.username == NormalizeUsername(username.value)
                      && IsNormalizedUsername(r.value.username)
                      && (forall i :: 0 <= i < |users| ==> users[i].id != r.value.id)
                      && (forall q :: CheckPassword(r.value, q) <==> Some(q) == password)
  {
    match ValidateUsername(username)
    case Err(e) => Err(e)
    case Ok(name) =>
      match SetPassword(User(NextId(users, UserId), name, None), password, salt)
      case Err(e) => Err(e)
      case Ok(u) =>
        if FindUser(users, Some(name)).Some? then Err(UsernameInUse) else Ok(u)
  }

  /** Adding a user that `NewUser` accepted keeps the table well formed. */
  lemma NewUserKeepsWellFormed(users: seq<User>, username: Option<string>, password: Option<string>, salt: nat)
    requires UsersWellFormed(users)
    requires NewUser(users, username, password, salt).Ok?
    ensures UsersWellFormed(users + [NewUser(users, username, password, salt).value])
  {
    var u := NewUser(users, username, password, salt).value;
    assert CheckPassword(u, password.value);
    AppendUserKeepsWellFormed(users, u);
  }

  lemma AppendUserKeepsWellFormed(users: seq<User>, u: User)
    requires UsersWellFormed(users)
    requires forall i :: 0 <= i < |users| ==> users[i].id != u.id
    requires !UsernameTaken(users, u.username)
    requires u.passwordHash.Some? && IsNormalizedUsername(u.username)
    ensures UsersWellFormed(users + [u])
  {
    var t := users + [u];
    forall i, j | 0 <= i < j < |t| ensures t[i].username != t[j].username {
      if j == |users| {
        assert t[i] == users[i];
      }
    }
  }
}

=== FILE: file_model.dfy ===
/** The `File` model of Boko-Hacks-2025/models/file.py: its own extension
    allow-list and `secure_save_file`, which picks a path under its upload
    folder that does not exist yet by appending `_1`, `_2`, ... to the
    name. The set of existing paths stands for `os.path.exists`. */
module FileModel {
  import opened Common
  import opened Text
  import opened SafeNames
  import Files

  /** The extensions the model accepts. */
  const ModelExtensions: set<string> := {"png", "jpg", "jpeg", "pdf", "txt"}

  const SecureUploadFolder := "/secure/upload/directory"

  /** `File.is_allowed_file(filename)`. */
  function IsAllowedFile(filename: string): (r: bool)
    ensures r <==> '.' in filename && Lower(AfterLast(filename, '.').value) in ModelExtensions
  {
    match AfterLast(filename, '.')
    case None => false
    case Some(e) => Lower(e) in ModelExtensions
  }

  /** Only the final extension counts, in any letter case. */
  lemma IsAllowedFileFinalExtension(stem: string, ext: string)
    requires '.' !in ext
    ensures IsAllowedFile(stem + "." + ext) <==> Lower(ext) in ModelExtensions
  {
    Files.AfterLastOfSuffix(stem, ext);
  }

  /** The two allow-lists disagree: the route takes `.gif` and the model
      refuses it. */
  lemma GifOnlyInRoute(stem: string)
    ensures Files.AllowedFile(stem + "." + "gif")
    ensures !IsAllowedFile(stem + "." + "gif")
  {
    Files.AllowedFileFinalExtension(stem, "gif");
    IsAllowedFileFinalExtension(stem, "gif");
    GifAndTxtListed();
  }

  /** ... and the model takes `.txt`, which the route refuses. */
  lemma TxtOnlyInModel(stem: string)
    ensures !Files.AllowedFile(stem + "." + "txt")
    ensures IsAllowedFile(stem + "." + "txt")
  {
    Files.AllowedFileFinalExtension(stem, "txt");
    IsAllowedFileFinalExtension(stem, "txt");
    GifAndTxtListed();
  }

  lemma GifAndTxtListed()
    ensures Lower("gif") in Files.RouteExtensions && Lower("gif") !in ModelExtensions
    ensures Lower("txt") !in Files.RouteExtensions && Lower("txt") in ModelExtensions
  {
    LowerNoUpper("gif");
    LowerNoUpper("txt");
    assert "gif" !in ModelExtensions;
    assert "txt" !in Files.RouteExtensions;
  }

  /** `f"{base}_{counter}{ext}"`. */
  function SuffixedName(base: string, counter: nat, ext: string): string {
    base + "_" + NatToString(counter) + ext
  }

  /** Different counters give different names. */
  lemma SuffixedNameInjective(base: string, ext: string, j: nat, k: nat)
    requires SuffixedName(base, j, ext) == SuffixedName(base, k, ext)
    ensures j == k
  {
    var a, b := NatToString(j), NatToString(k);
    var s, t := SuffixedName(base, j, ext), SuffixedName(base, k, ext);
    assert |a| == |b|;
    assert a == s[|base| + 1..|base| + 1 + |a|];
    assert b == t[|base| + 1..|base| + 1 + |b|];
    NatToStringInjective(j, k);
  }

  /** The joined path of a name without a separator determines the name. */
  lemma JoinPathInjective(a: string, b: string)
    requires '/' !in a && '/' !in b
    requires JoinPath(SecureUploadFolder, a) == JoinPath(SecureUploadFolder, b)
    ensures a == b
  {
    JoinInside(SecureUploadFolder, a);
    JoinInside(SecureUploadFolder, b);
    var p := SecureUploadFolder + "/";
    assert a == (p + a)[|p|..];
    assert b == (p + b)[|p|..];
  }

  /** `base + "_" + digits + ext` has no separator when `base` and `ext`
      have none. */
  lemma SuffixedNameNoSlash(base: string, counter: nat, ext: string)
    requires '/' !in base && '/' !in ext
    ensures '/' !in SuffixedName(base, counter, ext)
  {
    var d := NatToString(counter);
    assert forall i :: 0 <= i < |d| ==> d[i] != '/';
  }

  /** A path directly inside the folder: the folder, a separator, and a
      name without a separator. */
  predicate DirectlyInside(path: string) {
    var prefix := SecureUploadFolder + "/";
    StartsWith(path, prefix) && '/' !in path[|prefix|..]
  }

  lemma JoinedInside(name: string)
    requires '/' !in name
    ensures DirectlyInside(JoinPath(SecureUploadFolder, name))
  {
    JoinInside(SecureUploadFolder, name);
    var prefix := SecureUploadFolder + "/";
    assert (prefix + name)[|prefix|..] == name;
  }

  /** The candidate path for `counter`. */
  function Candidate(base: string, counter: nat, ext: string): string {
    JoinPath(SecureUploadFolder, SuffixedName(base, counter, ext))
  }

  datatype SaveError = InvalidFileType

  /** Two candidates for different counters are different paths. */
  lemma CandidateInjective(base: string, ext: string, j: nat, k: nat)
    requires '/' !in base && '/' !in ext
    requires Candidate(base, j, ext) == Candidate(base, k, ext)
    ensures j == k
  {
    SuffixedNameNoSlash(base, j, ext);
    SuffixedNameNoSlash(base, k, ext);
    JoinPathInjective(SuffixedName(base, j, ext), SuffixedName(base, k, ext));
    SuffixedNameInjective(base, ext, j, k);
  }

  /** The candidates for counters 1 to `n`. */
  function Candidates(base: string, ext: string, n: nat): set<string> {
    set j: nat | 1 <= j <= n :: Candidate(base, j, ext)
  }

  /** The first `n` candidates are `n` different paths. */
  lemma {:induction false} CandidatesCount(base: string, ext: string, n: nat)
    requires '/' !in base && '/' !in ext
    ensures |Candidates(base, ext, n)| == n
    decreases n
  {
    if n == 0 {
      assert Candidates(base, ext, 0) == {};
    } else {
      CandidatesCount(base, ext, n - 1);
      CandidatesGrow(base, ext, n);
      CandidateIsNew(base, ext, n);
    }
  }

  lemma CandidatesGrow(base: string, ext: string, n: nat)
    requires n >= 1
    ensures Candidates(base, ext, n) == Candidates(base, ext, n - 1) + {Candidate(base, n, ext)}
  {
    var prev, c := Candidates(base, ext, n - 1), Candidate(base, n, ext);
    forall p | p in Candidates(base, ext, n) ensures p in prev + {c} {
      var j: nat :| 1 <= j <= n && p == Candidate(base, j, ext);
      if j < n {
        assert p in prev;
      }
    }
    forall p | p in prev ensures p in Candidates(base, ext, n) {
      var j: nat :| 1 <= j <= n - 1 && p == Candidate(base, j, ext);
      assert 1 <= j <= n;
    }
    assert c in Candidates(base, ext, n);
  }

  lemma CandidateIsNew(base: string, ext: string, n: nat)
    requires n >= 1 && '/' !in base && '/' !in ext
    ensures Candidate(base, n, ext) !in Candidates(base, ext, n - 1)
  {
    var c := Candidate(base, n, ext);
    if c in Candidates(base, ext, n - 1) {
      var j: nat :| 1 <= j <= n - 1 && c == Candidate(base, j, ext);
      CandidateInjective(base, ext, j, n);
    }
  }

  /** The `while os.path.exists(...)` loop: the first counter from 1 whose
      candidate is free. It stops because the taken candidates are
      different members of the finite set `existing`. */
  method FirstFreeCounter(base: string, ext: string, existing: set<string>) returns (counter: nat)
    requires '/' !in base && '/' !in ext
    ensures counter >= 1 && Candidate(base, counter, ext) !in existing
    ensures forall j :: 1 <= j < counter ==> Candidate(base, j, ext) in existing
  {
    counter := 1;
    while Candidate(base, counter, ext) in existing
      invariant 1 <= counter <= |existing| + 1
      invariant forall j :: 1 <= j < counter ==> Candidate(base, j, ext) in existing
      decreases |existing| + 1 - counter
    {
      CandidatesCount(base, ext, counter);
      SubsetSize(Candidates(base, ext, counter), existing);
      counter := counter + 1;
    }
  }

  /** The path `secure_save_file` settles on for a sanitised `name` whose
      plain path is taken: `base_k+ext` for the first free counter k. */
  method SuffixedPath(name: string, existing: set<string>) returns (path: string)
    requires '/' !in name
    ensures path !in existing && DirectlyInside(path)
    ensures exists k :: k >= 1 && path == Candidate(SplitExt(name).0, k, SplitExt(name).1)
                        && forall j :: 1 <= j < k ==> Candidate(SplitExt(name).0, j, SplitExt(name).1) in existing
  {
    var base, ext := SplitExt(name).0, SplitExt(name).1;
    NoSlashInParts(name, base, ext);
    var counter := FirstFreeCounter(base, ext, existing);
    SuffixedNameNoSlash(base, counter, ext);
    JoinedInside(SuffixedName(base, counter, ext));
    path := Candidate(base, counter, ext);
  }

  /** `File.secure_save_file(uploaded_file)` against the paths that exist:
      the path the file is saved under, or the ValueError raised before
      anything is saved. */
  method SecureSaveFile(filename: string, existing: set<string>) returns (r: Result<string, SaveError>)
    ensures r.Err? <==> !IsAllowedFile(filename)
    ensures r.Ok? ==> r.value !in existing
    ensures r.Ok? ==> DirectlyInside(r.value)
    ensures (r.Ok? && JoinPath(SecureUploadFolder, SecureFilename(filename)) !in existing)
              ==> r.value == JoinPath(SecureUploadFolder, SecureFilename(filename))
    ensures r.Ok? && JoinPath(SecureUploadFolder, SecureFilename(filename)) in existing ==>
              var name := SecureFilename(filename);
              exists k :: k >= 1 && r.value == Candidate(SplitExt(name).0, k, SplitExt(name).1)
                          && forall j :: 1 <= j < k ==> Candidate(SplitExt(name).0, j, SplitExt(name).1) in existing
  {
    if !IsAllowedFile(filename) {
      return Err(InvalidFileType);
    }
    var name := SecureFilename(filename);
    var path := JoinPath(SecureUploadFolder, name);
    if path !in existing {
      JoinedInside(name);
      return Ok(path);
    }
    path := SuffixedPath(name, existing);
    return Ok(path);
  }

  lemma NoSlashInParts(name: string, base: string, ext: string)
    requires '/' !in name && base + ext == name
    ensures '/' !in base && '/' !in ext
  {
    assert forall i :: 0 <= i < |base| ==> base[i] == name[i];
    assert forall i :: 0 <= i < |ext| ==> ext[i] == name[|base| + i];
  }

  lemma SubsetSize<T>(a: set<T>, b: set<T>)
    requires a <= b
    ensures |a| <= |b|
  {
    assert b == a + (b - a);
  }
}

=== FILE: files.dfy ===
/** The file handlers of bokohacks/Boko-Hacks-2025/routes/files.py: the
    extension and MIME checks, the storage path, and the upload, delete
    and download requests over the `files` table and the upload folder on
    disk. `mimetypes.guess_type` is an input. */
module Files {
  import opened Common
  import opened Text
  import opened Credentials
  import opened SafeNames

  /** The extensions the route accepts. */
  const RouteExtensions: set<string> := {"pdf", "png", "jpg", "jpeg", "gif"}

  /** The MIME types `is_valid_mime_type` accepts (the values of its map). */
  const AllowedMimeTypes: set<string> := {"application/pdf", "image/png", "image/jpeg", "image/gif"}

  const UploadFolder := "uploads"

  /** Declared and never compared with anything. */
  const MaxFileSize := 10 * 1024 * 1024

  predicate IsExtensionChar(c: char) {
    IsAsciiAlnum(c) || c == '_' || c == '-'
  }

  /** `re.match(r'^[a-zA-Z0-9_-]+$', ext)`: one or more class characters,
      optionally followed by one line break, which `$` accepts. */
  predicate ExtensionPatternMatches(ext: string) {
    var body := if |ext| > 0 && ext[|ext| - 1] == '\n' then ext[..|ext| - 1] else ext;
    |body| > 0 && forall i :: 0 <= i < |body| ==> IsExtensionChar(body[i])
  }

  /** Every accepted extension passes the pattern, so the pattern never
      decides the outcome. */
  lemma RouteExtensionsMatchPattern(ext: string)
    requires ext in RouteExtensions
    ensures ExtensionPatternMatches(ext)
  {
    if ext == "pdf" {
      LowerLettersMatchPattern("pdf");
    } else if ext == "png" {
      LowerLettersMatchPattern("png");
    } else if ext == "jpg" {
      LowerLettersMatchPattern("jpg");
    } else if ext == "jpeg" {
      LowerLettersMatchPattern("jpeg");
    } else {
      LowerLettersMatchPattern("gif");
    }
  }

  lemma LowerLettersMatchPattern(ext: string)
    requires |ext| > 0 && forall i :: 0 <= i < |ext| ==> 'a' <= ext[i] <= 'z'
    ensures ExtensionPatternMatches(ext)
  {
    assert ext[|ext| - 1] != '\n';
    assert forall i :: 0 <= i < |ext| ==> IsExtensionChar(ext[i]);
  }

  /** `allowed_file(filename)`. */
  function AllowedFile(filename: string): (r: bool)
    ensures r <==> '.' in filename && Lower(AfterLast(filename, '.').value) in RouteExtensions
  {
    match AfterLast(filename, '.')
    case None => false
    case Some(e) =>
      var ext := Lower(e);
      if ext in RouteExtensions then
        RouteExtensionsMatchPattern(ext);
        ExtensionPatternMatches(ext)
      else false
  }

  /** `rsplit('.', 1)` finds the extension after the last dot. */
  lemma AfterLastOfSuffix(stem: string, ext: string)
    requires '.' !in ext
    ensures AfterLast(stem + "." + ext, '.') == Some(ext)
  {
    var s := stem + "." + ext;
    assert s[|stem|] == '.';
    var i := LastIndexOf(s, '.').value;
    assert s[i + 1..] == ext;
  }

  /** Only the final extension counts, in any letter case. */
  lemma AllowedFileFinalExtension(stem: string, ext: string)
    requires '.' !in ext
    ensures AllowedFile(stem + "." + ext) <==> Lower(ext) in RouteExtensions
  {
    AfterLastOfSuffix(stem, ext);
  }

  /** Whatever precedes it (`a.php`, say), a final `.png` is accepted. */
  lemma FinalPngAccepted(stem: string)
    ensures AllowedFile(stem + "." + "png")
  {
    AllowedFileFinalExtension(stem, "png");
    PngListedPhpNot();
  }

  /** Whatever precedes it (`a.png`, say), a final `.php` is rejected. */
  lemma FinalPhpRejected(stem: string)
    ensures !AllowedFile(stem + "." + "php")
  {
    AllowedFileFinalExtension(stem, "php");
    PngListedPhpNot();
  }

  lemma PngListedPhpNot()
    ensures Lower("png") in RouteExtensions
    ensures Lower("php") !in RouteExtensions
  {
    LowerNoUpper("png");
    LowerNoUpper("php");
    assert "php" !in RouteExtensions;
  }

  /** `is_valid_mime_type`: the type guessed from the name is one of the
      four. */
  predicate ValidMimeType(guessed: Option<string>) {
    guessed.Some? && guessed.value in AllowedMimeTypes
  }

  /** `secure_file_path(filename)`. */
  function SecureFilePath(filename: string): (r: string)
    ensures r == UploadFolder + "/" + SecureFilename(filename)
  {
    JoinInside(UploadFolder, SecureFilename(filename));
    JoinPath(UploadFolder, SecureFilename(filename))
  }

  // ------------------------------------------------------------ the state

  datatype StoredFile = StoredFile(id: nat, filename: string, path: string, uploadedAt: int, userId: nat)

  /** The upload folder on disk: file contents by path. */
  type Disk = map<string, seq<byte>>

  /** The `file` part of a multipart request. */
  datatype Upload = Upload(filename: string, data: seq<byte>)

  datatype FileOutcome =
    | Uploaded(file: StoredFile)
    | Deleted(wasOnDisk: bool)
    | Sent(data: seq<byte>)
    | NotLoggedIn       // 401
    | UserNotFound      // 404
    | NoFilePart        // 400
    | InvalidFileType   // 400
    | FileNotFound      // 404 from get_or_404
    | AccessDenied      // 403
    | Failed            // 500 from the handler's except clause

  function Status(o: FileOutcome): int {
    match o
    case Uploaded(_) => 200
    case Deleted(_) => 200
    case Sent(_) => 200
    case NotLoggedIn => 401
    case UserNotFound => 404
    case NoFilePart => 400
    case InvalidFileType => 400
    case FileNotFound => 404
    case AccessDenied => 403
    case Failed => 500
  }

  datatype FilesResult = FilesResult(files: seq<StoredFile>, disk: Disk, outcome: FileOutcome)

  function FileId(f: StoredFile): nat { f.id }

  /** The two unique columns: `id` and `file_path`. */
  predicate FilesWellFormed(files: seq<StoredFile>) {
    && (forall i, j :: 0 <= i < j < |files| ==> files[i].id != files[j].id)
    && (forall i, j :: 0 <= i < j < |files| ==> files[i].path != files[j].path)
  }

  predicate PathInUse(files: seq<StoredFile>, path: string) {
    exists i :: 0 <= i < |files| && files[i].path == path
  }

  /** The user the session names, if it is stored. */
  function SessionUser(users: seq<User>, session: Session): (r: Option<User>)
    ensures r.Some? <==> session.user.Some? && UsernameTaken(users, session.user.value)
    ensures r.Some? ==> r.value.username == session.user.value && r.value in users
  {
    if session.user.None? then None else FindUser(users, session.user)
  }

  // ------------------------------------------------------------- upload

  /** POST `/apps/files/upload` at time `now`, with the MIME type guessed
      from the name. The file is written to disk before the row is
      committed; a second row for the same path violates the unique
      column, and the handler answers 500 after the write. */
  function UploadFile(users: seq<User>, files: seq<StoredFile>, disk: Disk, session: Session,
                      upload: Option<Upload>, guessedMime: Option<string>, now: int): (r: FilesResult)
    ensures r.outcome.Uploaded? <==>
              && SessionUser(users, session).Some?
              && upload.Some? && upload.value.filename != ""
              && AllowedFile(upload.value.filename) && ValidMimeType(guessedMime)
              && !PathInUse(files, SecureFilePath(upload.value.filename))
    ensures r.outcome == Failed <==>
              && SessionUser(users, session).Some?
              && upload.Some? && upload.value.filename != ""
              && AllowedFile(upload.value.filename) && ValidMimeType(guessedMime)
              && PathInUse(files, SecureFilePath(upload.value.filename))
    ensures session.user.None? ==> r == FilesResult(files, disk, NotLoggedIn)
    ensures session.user.Some? && SessionUser(users, session).None? ==> r == FilesResult(files, disk, UserNotFound)
    ensures (SessionUser(users, session).Some? && (upload.None? || upload.value.filename == ""))
              ==> r == FilesResult(files, disk, NoFilePart)
    ensures (SessionUser(users, session).Some? && upload.Some? && upload.value.filename != ""
             && (!AllowedFile(upload.value.filename) || !ValidMimeType(guessedMime)))
              ==> r == FilesResult(files, disk, InvalidFileType)
    ensures !r.outcome.Uploaded? ==> r.files == files
    ensures r.outcome.Uploaded? || r.outcome == Failed ==>
              upload.Some? && r.disk == disk[SecureFilePath(upload.value.filename) := upload.value.data]
    ensures !r.outcome.Uploaded? && r.outcome != Failed ==> r.disk == disk
    ensures r.outcome.Uploaded? ==>
              && r.files == files + [r.outcome.file]
              && r.outcome.file.filename == SecureFilename(upload.value.filename)
              && r.outcome.file.path == UploadFolder + "/" + r.outcome.file.filename
              && r.outcome.file.path == SecureFilePath(upload.value.filename)
              && (forall i :: 0 <= i < |files| ==> files[i].id != r.outcome.file.id)
              && r.outcome.file.userId == SessionUser(users, session).value.id
              && r.outcome.file.uploadedAt == now
  {
    match SessionUser(users, session)
    case None => FilesResult(files, disk, if session.user.None? then NotLoggedIn else UserNotFound)
    case Some(owner) =>
      if upload.None? || upload.value.filename == "" then FilesResult(files, disk, NoFilePart)
      else if !AllowedFile(upload.value.filename) || !ValidMimeType(guessedMime) then
        FilesResult(files, disk, InvalidFileType)
      else
        var name := SecureFilename(upload.value.filename);
        var path := SecureFilePath(name);
        SecureFilenameIdempotent(upload.value.filename);
        var written := disk[path := upload.value.data];
        if PathInUse(files, path) then FilesResult(files, written, Failed)
        else
          var row := StoredFile(NextId(files, FileId), name, path, now, owner.id);
          FilesResult(files + [row], written, Uploaded(row))
  }

  /** The size limit is never applied: whether an upload succeeds does not
      depend on the size of its contents. */
  lemma SizeNeverChecked(users: seq<User>, files: seq<StoredFile>, disk: Disk, session: Session,
                         filename: string, small: seq<byte>, large: seq<byte>, guessedMime: Option<string>, now: int)
    requires |small| <= MaxFileSize < |large|
    ensures UploadFile(users, files, disk, session, Some(Upload(filename, large)), guessedMime, now).outcome.Uploaded?
            == UploadFile(users, files, disk, session, Some(Upload(filename, small)), guessedMime, now).outcome.Uploaded?
  {
  }

  /** An upload keeps both unique columns unique. */
  lemma UploadKeepsWellFormed(users: seq<User>, files: seq<StoredFile>, disk: Disk, session: Session,
                              upload: Option<Upload>, guessedMime: Option<string>, now: int)
    requires FilesWellFormed(files)
    ensures FilesWellFormed(UploadFile(users, files, disk, session, upload, guessedMime, now).files)
  {
    var r := UploadFile(users, files, disk, session, upload, guessedMime, now);
    if r.outcome.Uploaded? {
      AppendKeepsWellFormed(files, r.outcome.file);
    }
  }

  lemma AppendKeepsWellFormed(files: seq<StoredFile>, row: StoredFile)
    requires FilesWellFormed(files)
    requires forall i :: 0 <= i < |files| ==> files[i].id != row.id
    requires !PathInUse(files, row.path)
    ensures FilesWellFormed(files + [row])
  {
  }

  /** A second upload under a name that sanitises to a stored path is
      refused by the unique column only after its contents have replaced
      the stored file on disk, whoever owns the row. */
  lemma CollisionOverwritesStoredFile(users: seq<User>, files: seq<StoredFile>, disk: Disk, session: Session,
                                      upload: Upload, guessedMime: Option<string>, now: int, i: nat)
    requires SessionUser(users, session).Some?
    requires upload.filename != "" && AllowedFile(upload.filename) && ValidMimeType(guessedMime)
    requires i < |files| && files[i].path == SecureFilePath(upload.filename)
    ensures var r := UploadFile(users, files, disk, session, Some(upload), guessedMime, now);
            && r.outcome == Failed && r.files == files
            && files[i].path in r.disk && r.disk[files[i].path] == upload.data
  {
    assert PathInUse(files, SecureFilePath(upload.filename));
  }

  // -------------------------------------------------------------- delete

  /** Position of the row with that primary key. */
  function FindFile(files: seq<StoredFile>, fileId: nat): (r: Option<nat>)
    ensures r.None? <==> forall i :: 0 <= i < |files| ==> files[i].id != fileId
    ensures r.Some? ==> r.value < |files| && files[r.value].id == fileId
  {
    if |files| == 0 then None
    else if files[|files| - 1].id == fileId then Some(|files| - 1)
    else FindFile(files[..|files| - 1], fileId)
  }

  /** The table without the row at `i`. */
  function RemoveAt(files: seq<StoredFile>, i: nat): (r: seq<StoredFile>)
    requires i < |files|
    ensures |r| == |files| - 1
    ensures forall k :: 0 <= k < i ==> r[k] == files[k]
    ensures forall k :: i <= k < |r| ==> r[k] == files[k + 1]
  {
    files[..i] + files[i + 1..]
  }

  /** DELETE `/apps/files/delete/<file_id>`. The row goes first; a file
      already missing from disk is logged and the request still succeeds. */
  function DeleteFile(users: seq<User>, files: seq<StoredFile>, disk: Disk, session: Session, fileId: nat)
    : (r: FilesResult)
    ensures r.outcome.Deleted? <==>
              && SessionUser(users, session).Some?
              && FindFile(files, fileId).Some?
              && files[FindFile(files, fileId).value].userId == SessionUser(users, session).value.id
    ensures !r.outcome.Deleted? ==> r.files == files && r.disk == disk
    ensures session.user.None? ==> r.outcome == NotLoggedIn
    ensures session.user.Some? && SessionUser(users, session).None? ==> r.outcome == UserNotFound
    ensures SessionUser(users, session).Some? && FindFile(files, fileId).None? ==> r.outcome == FileNotFound
    ensures (SessionUser(users, session).Some? && FindFile(files, fileId).Some?
             && files[FindFile(files, fileId).value].userId != SessionUser(users, session).value.id)
              ==> r.outcome == AccessDenied
    ensures r.outcome.Deleted? ==>
              var i := FindFile(files, fileId).value;
              && r.files == RemoveAt(files, i)
              && r.disk == disk - {files[i].path}
              && r.outcome.wasOnDisk == (files[i].path in disk)
  {
    match SessionUser(users, session)
    case None => FilesResult(files, disk, if session.user.None? then NotLoggedIn else UserNotFound)
    case Some(owner) =>
      match FindFile(files, fileId)
      case None => FilesResult(files, disk, FileNotFound)
      case Some(i) =>
        if files[i].userId != owner.id then FilesResult(files, disk, AccessDenied)
        else
          var path := files[i].path;
          FilesResult(RemoveAt(files, i), disk - {path}, Deleted(path in disk))
  }

  /** With unique keys, a delete removes exactly the requested row and
      keeps every other row. */
  lemma DeleteRemovesExactlyThatRow(users: seq<User>, files: seq<StoredFile>, disk: Disk, session: Session, fileId: nat)
    requires FilesWellFormed(files)
    requires DeleteFile(users, files, disk, session, fileId).outcome.Deleted?
    ensures forall f :: f in DeleteFile(users, files, disk, session, fileId).files <==> f in files && f.id != fileId
  {
    var i := FindFile(files, fileId).value;
    var r := RemoveAt(files, i);
    forall f ensures f in r <==> f in files && f.id != fileId {
      if f in r {
        var k :| 0 <= k < |r| && r[k] == f;
        if k < i { assert files[k] == f; } else { assert files[k + 1] == f; }
      }
      if f in files && f.id != fileId {
        var k :| 0 <= k < |files| && files[k] == f;
        if k < i { assert r[k] == f; } else { assert k != i && r[k - 1] == f; }
      }
    }
  }

  // ------------------------------------------------------------ download

  /** GET `/apps/files/download/<file_id>`. The stored path is split into
      directory and name and served from there; a file missing from disk
      makes `send_from_directory` raise, which the handler turns into 500. */
  function DownloadFile(users: seq<User>, files: seq<StoredFile>, disk: Disk, session: Session, fileId: nat)
    : (r: FileOutcome)
    ensures r.Sent? <==>
              && SessionUser(users, session).Some?
              && FindFile(files, fileId).Some?
              && files[FindFile(files, fileId).value].userId == SessionUser(users, session).value.id
              && files[FindFile(files, fileId).value].path in disk
    ensures r.Sent? ==> r.data == disk[files[FindFile(files, fileId).value].path]
    ensures session.user.None? ==> r == NotLoggedIn
    ensures session.user.Some? && SessionUser(users, session).None? ==> r == UserNotFound
    ensures SessionUser(users, session).Some? && FindFile(files, fileId).None? ==> r == FileNotFound
    ensures (SessionUser(users, session).Some? && FindFile(files, fileId).Some?
             && files[FindFile(files, fileId).value].userId == SessionUser(users, session).value.id
             && files[FindFile(files, fileId).value].path !in disk)
              ==> r == Failed
    ensures (SessionUser(users, session).Some? && FindFile(files, fileId).Some?
             && files[FindFile(files, fileId).value].userId != SessionUser(users, session).value.id)
              ==> r == AccessDenied
  {
    match SessionUser(users, session)
    case None => if session.user.None? then NotLoggedIn else UserNotFound
    case Some(owner) =>
      match FindFile(files, fileId)
      case None => FileNotFound
      case Some(i) =>
        if files[i].userId != owner.id then AccessDenied
        else if files[i].path in disk then Sent(disk[files[i].path])
        else Failed
  }

  /** Nobody receives the contents of a file stored under another user's
      id. */
  lemma DownloadOnlyOwnFiles(users: seq<User>, files: seq<StoredFile>, disk: Disk, session: Session, fileId: nat)
    requires FilesWellFormed(files)
    requires DownloadFile(users, files, disk, session, fileId).Sent?
    ensures exists i :: 0 <= i < |files| && files[i].id == fileId
                        && files[i].userId == SessionUser(users, session).value.id
  {
    var i := FindFile(files, fileId).value;
    assert files[i].id == fileId;
  }
}

=== FILE: html.dfy ===
/** HTML escaping as `Markup.escape` (markupsafe) performs it, and the
    entity decoding a browser applies when it renders the escaped text. */
module Html {
  import opened Text

  /** The five characters markupsafe replaces. */
  predicate IsMarkupChar(c: char) {
    c == '&' || c == '<' || c == '>' || c == '"' || c == '\''
  }

  function EscapeChar(c: char): string {
    if c == '&' then "&amp;"
    else if c == '<' then "&lt;"
    else if c == '>' then "&gt;"
    else if c == '"' then "&#34;"
    else if c == '\'' then "&#39;"
    else [c]
  }

  /** `Markup.escape(s)`. */
  function Escape(s: string): string
    decreases |s|
  {
    if |s| == 0 then "" else EscapeChar(s[0]) + Escape(s[1..])
  }

  /** Entity decoding of the five entities `Escape` produces. */
  function Unescape(s: string): string
    decreases |s|
  {
    if |s| == 0 then ""
    else if StartsWith(s, "&amp;") then "&" + Unescape(s[5..])
    else if StartsWith(s, "&lt;") then "<" + Unescape(s[4..])
    else if StartsWith(s, "&gt;") then ">" + Unescape(s[4..])
    else if StartsWith(s, "&#34;") then "\"" + Unescape(s[5..])
    else if StartsWith(s, "&#39;") then "'" + Unescape(s[5..])
    else [s[0]] + Unescape(s[1..])
  }

  lemma UnescapeAmp(t: string)
    ensures Unescape("&amp;" + t) == "&" + Unescape(t)
  {
    var u := "&amp;" + t;
    assert StartsWith(u, "&amp;");
    assert u[5..] == t;
  }

  lemma UnescapeLt(t: string)
    ensures Unescape("&lt;" + t) == "<" + Unescape(t)
  {
    var u := "&lt;" + t;
    assert !StartsWith(u, "&amp;") by { assert u[1] == 'l'; }
    assert StartsWith(u, "&lt;");
    assert u[4..] == t;
  }

  lemma UnescapeGt(t: string)
    ensures Unescape("&gt;" + t) == ">" + Unescape(t)
  {
    var u := "&gt;" + t;
    assert !StartsWith(u, "&amp;") by { assert u[1] == 'g'; }
    assert !StartsWith(u, "&lt;") by { assert u[1] == 'g'; }
    assert StartsWith(u, "&gt;");
    assert u[4..] == t;
  }

  lemma UnescapeQuot(t: string)
    ensures Unescape("&#34;" + t) == "\"" + Unescape(t)
  {
    var u := "&#34;" + t;
    assert u[1] == '#' && u[3] == '4';
    assert !StartsWith(u, "&amp;") && !StartsWith(u, "&lt;") && !StartsWith(u, "&gt;");
    assert StartsWith(u, "&#34;");
    assert u[5..] == t;
  }

  lemma UnescapeApos(t: string)
    ensures Unescape("&#39;" + t) == "'" + Unescape(t)
  {
    var u := "&#39;" + t;
    assert u[1] == '#' && u[3] == '9';
    assert !StartsWith(u, "&amp;") && !StartsWith(u, "&lt;") && !StartsWith(u, "&gt;");
    assert !StartsWith(u, "&#34;");
    assert StartsWith(u, "&#39;");
    assert u[5..] == t;
  }

  lemma UnescapePlain(c: char, t: string)
    requires c != '&'
    ensures Unescape([c] + t) == [c] + Unescape(t)
  {
    var u := [c] + t;
    assert u[0] == c;
    assert u[1..] == t;
    NoEntityAhead(u);
  }

  /** Text not starting with `&` starts no entity. */
  lemma NoEntityAhead(u: string)
    requires |u| > 0 && u[0] != '&'
    ensures !StartsWith(u, "&amp;") && !StartsWith(u, "&lt;") && !StartsWith(u, "&gt;")
    ensures !StartsWith(u, "&#34;") && !StartsWith(u, "&#39;")
  {
    if |u| >= 4 {
      assert u[..4][0] == u[0];
    }
    if |u| >= 5 {
      assert u[..5][0] == u[0];
    }
  }

  lemma UnescapeEscapeChar(c: char, t: string)
    ensures Unescape(EscapeChar(c) + t) == [c] + Unescape(t)
  {
    if c == '&' {
      UnescapeAmp(t);
    } else if c == '<' {
      UnescapeLt(t);
    } else if c == '>' {
      UnescapeGt(t);
    } else if c == '"' {
      UnescapeQuot(t);
    } else if c == '\'' {
      UnescapeApos(t);
    } else {
      UnescapePlain(c, t);
    }
  }

  /** Rendering escaped text shows exactly the text that was escaped. */
  lemma {:induction false} UnescapeEscape(s: string)
    ensures Unescape(Escape(s)) == s
    decreases |s|
  {
    if |s| > 0 {
      calc {
        Unescape(Escape(s));
        Unescape(EscapeChar(s[0]) + Escape(s[1..]));
        { UnescapeEscapeChar(s[0], Escape(s[1..])); }
        [s[0]] + Unescape(Escape(s[1..]));
        { UnescapeEscape(s[1..]); }
        [s[0]] + s[1..];
        s;
      }
    }
  }

  /** Escaped text contains no character that could open or close a tag or
      an attribute value. */
  lemma {:induction false} EscapeIsInert(s: string)
    ensures forall i :: 0 <= i < |Escape(s)| ==>
              Escape(s)[i] != '<' && Escape(s)[i] != '>' && Escape(s)[i] != '"' && Escape(s)[i] != '\''
    decreases |s|
  {
    if |s| > 0 {
      EscapeIsInert(s[1..]);
      var e := EscapeChar(s[0]);
      var r := Escape(s[1..]);
      forall i | 0 <= i < |e + r|
        ensures (e + r)[i] != '<' && (e + r)[i] != '>' && (e + r)[i] != '"' && (e + r)[i] != '\''
      {
        if i >= |e| {
          assert (e + r)[i] == r[i - |e|];
        }
      }
    }
  }

  /** Escaping never shortens a string, and changes it exactly when it
      contains one of the five markup characters. */
  lemma {:induction false} EscapeLength(s: string)
    ensures |Escape(s)| >= |s|
    ensures |Escape(s)| == |s| <==> forall i :: 0 <= i < |s| ==> !IsMarkupChar(s[i])
    ensures |Escape(s)| <= 5 * |s|
    decreases |s|
  {
    if |s| > 0 {
      EscapeLength(s[1..]);
      assert forall i :: 1 <= i < |s| ==> s[i] == s[1..][i - 1];
    }
  }
}

=== FILE: login.dfy ===
/** The `/login` and `/logout` handlers of
    bokohacks/Boko-Hacks-2025/routes/login.py as transitions of the
    session. */
module Login {
  import opened Common
  import opened Credentials
  import Registration

  datatype LoginOutcome =
    | LoggedIn            // redirect to the hub
    | MissingCredentials  // "Username and password are required."
    | InvalidCredentials  // "Invalid username or password.", same page

  datatype LoginResult = LoginResult(session: Session, outcome: LoginOutcome)

  /** POST `/login`. The lookup uses the submitted username as it is. */
  function Login(users: seq<User>, session: Session, username: Option<string>, password: Option<string>)
    : (r: LoginResult)
    ensures r.outcome != LoggedIn ==> r.session == session
    ensures r.outcome == LoggedIn ==>
              && Present(username) && Present(password)
              && r.session == session.(user := username)
              && exists i :: 0 <= i < |users| && users[i].username == username.value
                                              && CheckPassword(users[i], password.value)
    ensures r.outcome == MissingCredentials <==> !Present(username) || !Present(password)
    ensures Present(username) && Present(password) && r.outcome != LoggedIn ==> r.outcome == InvalidCredentials
    ensures (Present(username) && Present(password) && !UsernameTaken(users, username.value))
              ==> r.outcome == InvalidCredentials
  {
    if !Present(username) || !Present(password) then LoginResult(session, MissingCredentials)
    else
      match FindUser(users, username)
      case Some(u) =>
        if CheckPassword(u, password.value) then
          LoginResult(session.(user := Some(u.username)), LoggedIn)
        else LoginResult(session, InvalidCredentials)
      case None => LoginResult(session, InvalidCredentials)
  }

  /** With unique usernames, login succeeds exactly for a stored username
      with its own password. */
  lemma LoginSucceedsIff(users: seq<User>, session: Session, username: string, password: string)
    requires UsersWellFormed(users)
    requires username != "" && password != ""
    ensures Login(users, session, Some(username), Some(password)).outcome == LoggedIn
            <==> exists i :: 0 <= i < |users| && users[i].username == username && CheckPassword(users[i], password)
  {
    if exists i :: 0 <= i < |users| && users[i].username == username && CheckPassword(users[i], password) {
      var i :| 0 <= i < |users| && users[i].username == username && CheckPassword(users[i], password);
      var u := FindUser(users, Some(username)).value;
      var k :| 0 <= k < |users| && users[k] == u;
      assert k == i;
    }
  }

  /** GET `/logout`: drops the user, keeps the rest of the session, and
      does the same whether or not anyone was logged in. */
  function Logout(session: Session): (r: Session)
    ensures r.user.None?
    ensures r.captchaText == session.captchaText
  {
    session.(user := None)
  }

  /** After logout the session is the same whatever login attempts came
      before it. */
  lemma LogoutForgetsLogin(users: seq<User>, session: Session, username: Option<string>, password: Option<string>)
    ensures Logout(Login(users, session, username, password).session) == Logout(session)
  {
  }

  /** A stored user logs in with their own name and password, and the
      session then names them. */
  lemma StoredUserLogsIn(users: seq<User>, session: Session, i: nat, password: string)
    requires UsersWellFormed(users)
    requires i < |users| && password != ""
    requires CheckPassword(users[i], password)
    ensures Login(users, session, Some(users[i].username), Some(password))
            == LoginResult(session.(user := Some(users[i].username)), LoggedIn)
  {
    var name := users[i].username;
    var u := FindUser(users, Some(name)).value;
    var k :| 0 <= k < |users| && users[k] == u;
    assert k == i;
  }

  /** A user registered under an already normalised name can log in with
      the same name and password. */
  lemma RegisterThenLogin(users: seq<User>, session: Session, name: string, password: string, captcha: Option<string>,
                          recaptchaOk: bool, salt: nat, later: Session)
    requires UsersWellFormed(users)
    requires IsNormalizedUsername(name)
    requires var form := Registration.RegisterForm(Some(name), Some(password), captcha);
             Registration.Register(users, session, form, recaptchaOk, salt).outcome == Registration.Registered
    ensures var form := Registration.RegisterForm(Some(name), Some(password), captcha);
            var r := Registration.Register(users, session, form, recaptchaOk, salt);
            Login(r.users, later, Some(name), Some(password)) == LoginResult(later.(user := Some(name)), LoggedIn)
  {
    var form := Registration.RegisterForm(Some(name), Some(password), captcha);
    var u := Registration.RegisteredNameKept(users, session, form, recaptchaOk, salt);
    StoredUserLogsIn(users + [u], later, |users|, password);
  }

  /** The lookup does not normalise: a name that normalisation would
      change never logs in, even when it is the registered name in another
      case or with padding. */
  lemma UnnormalizedNameNeverLogsIn(users: seq<User>, session: Session, username: string, password: Option<string>)
    requires UsersWellFormed(users)
    requires NormalizeUsername(username) != username
    ensures Login(users, session, Some(username), password).outcome != LoggedIn
  {
    if Login(users, session, Some(username), password).outcome == LoggedIn {
      var i :| 0 <= i < |users| && users[i].username == username && CheckPassword(users[i], password.value);
      NormalizedFixpoint(users[i].username);
    }
  }
}

=== FILE: news.dfy ===
/** The news feed of bokohacks/Boko-Hacks-2025/routes/news.py: it maps the
    requested category to an upstream category, fetches that category's
    headlines, keeps the first ten, and projects each article onto the
    five fields the page shows. A filter may ask for the confidential
    internal articles as well.

    The upstream service is a parameter: `fetch` gives the response for a
    URL. The handler as written never imports `session`, so the
    authorisation check for internal articles raises and every such
    request ends in a 500 (`FetchNews`); `FetchNewsIntended` is the
    handler with the import in place. */
module News {
  import opened Common
  import opened Text

  const NewsApiBaseUrl := "https://saurav.tech/NewsAPI"
  const DefaultCountry := "us"
  const DefaultCategory := "business"

  /** At most this many upstream articles are shown. */
  const MaxArticles := 10

  const CategoryMapping: map<string, string> :=
    map["business" := "business", "technology" := "technology", "world" := "general"]

  /** `CATEGORY_MAPPING.get(category, 'business')`. */
  function ApiCategory(category: string): (r: string)
    ensures r in CategoryMapping.Values
    ensures category in CategoryMapping ==> r == CategoryMapping[category]
    ensures category !in CategoryMapping ==> r == DefaultCategory
  {
    assert CategoryMapping["business"] == DefaultCategory;
    if category in CategoryMapping then CategoryMapping[category] else DefaultCategory
  }

  /** The upstream categories, label by label. */
  lemma CategoryCases(category: string)
    ensures ApiCategory("world") == "general"
    ensures ApiCategory("technology") == "technology"
    ensures ApiCategory("business") == "business"
    ensures category != "world" && category != "technology" ==> ApiCategory(category) == "business"
  {
  }

  function ApiUrl(category: string): string {
    NewsApiBaseUrl + "/top-headlines/category/" + ApiCategory(category) + "/" + DefaultCountry + ".json"
  }

  /** What the upstream request gives: a `RequestException` (connection
      failure, timeout), or a status with a body that is JSON or not. */
  datatype Upstream =
    | Unreachable
    | Response(status: int, body: Option<Json>)

  /** The `filter` query parameter: absent (read as `{}`), not JSON, or the
      parsed value. */
  datatype FilterArg = NoFilter | Unparsable | Parsed(value: Json)

  /** One item of the response's `data` list. */
  datatype NewsItem = NewsItem(title: Json, content: Json, date: Json, readMoreUrl: Json, imageUrl: Json)

  datatype NewsError =
    | RequestFailed
    | UpstreamStatus(code: int)
    | InvalidFilter
    | Unauthorized
    | InternalError

  datatype NewsResponse =
    | NewsOk(category: string, items: seq<NewsItem>)
    | NewsErr(error: NewsError)

  function Status(r: NewsResponse): int {
    match r
    case NewsOk(_, _) => 200
    case NewsErr(RequestFailed) => 500
    case NewsErr(UpstreamStatus(code)) => code
    case NewsErr(InvalidFilter) => 400
    case NewsErr(Unauthorized) => 403
    case NewsErr(InternalError) => 500
  }

  /** `d.get(key, default)`. */
  function Get(fields: map<string, Json>, key: string, default: Json): Json {
    if key in fields then fields[key] else default
  }

  /** The projection of one article. A key that is present is passed on
      whatever its value; only a missing key gets the default. */
  function TransformArticle(article: map<string, Json>): NewsItem {
    NewsItem(
      Get(article, "title", JStr("No Title")),
      Get(article, "description", JStr("No content available")),
      Get(article, "publishedAt", JStr("")),
      Get(article, "url", JStr("#")),
      Get(article, "urlToImage", JStr("")))
  }

  lemma TransformDefaults()
    ensures TransformArticle(map[]) == NewsItem(JStr("No Title"), JStr("No content available"), JStr(""), JStr("#"), JStr(""))
  {
  }

  lemma TransformKeepsGivenFields(article: map<string, Json>)
    requires "title" in article && "description" in article && "publishedAt" in article
    requires "url" in article && "urlToImage" in article
    ensures TransformArticle(article)
              == NewsItem(article["title"], article["description"], article["publishedAt"], article["url"], article["urlToImage"])
  {
  }

  /** The loop over the articles: one item per article, in order. An
      article that is not an object makes `article.get` raise. */
  function TransformAll(articles: seq<Json>): (r: Option<seq<NewsItem>>)
    ensures r.Some? <==> forall i :: 0 <= i < |articles| ==> articles[i].JObj?
    ensures r.Some? ==> |r.value| == |articles|
    ensures r.Some? ==> forall i :: 0 <= i < |articles| ==>
              articles[i].JObj? && r.value[i] == TransformArticle(articles[i].fields)
  {
    if forall i :: 0 <= i < |articles| ==> articles[i].JObj? then
      Some(seq(|articles|, i requires 0 <= i < |articles| && articles[i].JObj? => TransformArticle(articles[i].fields)))
    else None
  }

  /** Projecting two lists one after the other is projecting their
      concatenation. */
  lemma TransformAllAppend(a: seq<Json>, b: seq<Json>)
    requires TransformAll(a).Some? && TransformAll(b).Some?
    ensures TransformAll(a + b) == Some(TransformAll(a).value + TransformAll(b).value)
  {
    var ab := a + b;
    assert forall i :: 0 <= i < |ab| ==> ab[i] == if i < |a| then a[i] else b[i - |a|];
    var ta, tb := TransformAll(a).value, TransformAll(b).value;
    assert forall i :: 0 <= i < |ab| ==> ab[i].JObj?;
    var t := TransformAll(ab).value;
    assert forall i :: 0 <= i < |ab| ==> t[i] == (ta + tb)[i];
    assert t == ta + tb;
  }

  /** `data.get('articles', [])[:10]`: a list is cut to its first ten
      elements, a string to its first ten characters; anything else, or a
      body that is not an object, raises. */
  datatype Articles = ArticleList(items: seq<Json>) | ArticleText(text: string)

  function UpstreamArticles(data: Json): (r: Option<Articles>)
    ensures r.Some? <==> data.JObj? && (Get(data.fields, "articles", JArr([])).JArr? || Get(data.fields, "articles", JArr([])).JStr?)
    ensures r.Some? && r.value.ArticleList? ==> |r.value.items| <= MaxArticles
    ensures data.JObj? && Get(data.fields, "articles", JArr([])).JArr? ==>
              var xs := Get(data.fields, "articles", JArr([])).items;
              && r.Some? && r.value.ArticleList?
              && |r.value.items| == (if |xs| < MaxArticles then |xs| else MaxArticles)
              && r.value.items == xs[..|r.value.items|]
    ensures data.JObj? && Get(data.fields, "articles", JArr([])).JStr? ==>
              var text := Get(data.fields, "articles", JArr([])).s;
              && r.Some? && r.value.ArticleText?
              && |r.value.text| == (if |text| < MaxArticles then |text| else MaxArticles)
              && r.value.text == text[..|r.value.text|]
  {
    if !data.JObj? then None
    else
      match Get(data.fields, "articles", JArr([]))
      case JArr(xs) => Some(ArticleList(Take(xs, MaxArticles)))
      case JStr(s) => Some(ArticleText(Take(s, MaxArticles)))
      case _ => None
  }

  /** The loop over a list, or over a string's characters: a character has
      no `get`, so only the empty string gets through. */
  function TransformArticles(a: Articles): Option<seq<NewsItem>> {
    match a
    case ArticleList(xs) => TransformAll(xs)
    case ArticleText(s) => if s == [] then Some([]) else None
  }

  /** `filter_options.get('showInternal') == True`; in Python `1 == True`
      and `1.0 == True` hold as well. */
  predicate ShowInternal(options: map<string, Json>) {
    "showInternal" in options && (options["showInternal"] == JBool(true) || options["showInternal"] == JNum(1.0))
  }

  lemma ShowInternalCases()
    ensures ShowInternal(map["showInternal" := JBool(true)])
    ensures ShowInternal(map["showInternal" := JNum(1.0)])
    ensures !ShowInternal(map["showInternal" := JStr("true")])
    ensures !ShowInternal(map[])
  {
  }

  function InternalArticle(title: string, description: string, publishedAt: string): Json {
    JObj(map[
      "title" := JStr(title),
      "description" := JStr(description),
      "url" := JStr("#internal-only"),
      "publishedAt" := JStr(publishedAt),
      "urlToImage" := JStr("")])
  }

  /** The three confidential articles. */
  const InternalNews: seq<Json> := [
    InternalArticle("CONFIDENTIAL: Security Breach Report Q3",
      "Details of recent security incidents affecting customer data. For internal review only.",
      "2025-01-15T08:30:00Z"),
    InternalArticle("CONFIDENTIAL: Upcoming Product Launch",
      "Specifications for our next-gen product launch in Q2. Contains proprietary information.",
      "2025-02-01T10:15:00Z"),
    InternalArticle("CONFIDENTIAL: Internal API Credentials",
      "API_KEY: 5x6hdPQmSK2aT9E3bL8nZ7yRfV4wX1  ADMIN_KEY: jKq2P8zX5sW7vT1yR4aB9nL6cE3hG",
      "2025-01-30T14:45:00Z")
  ]

  function RequestedCategory(category: Option<string>): string {
    if category.Some? then category.value else DefaultCategory
  }

  function FilterOptions(filter: FilterArg): Json
    requires !filter.Unparsable?
  {
    if filter.NoFilter? then JObj(map[]) else filter.value
  }

  /** The upstream answered 200 with an object whose articles can be read:
      the point past which the filter is looked at. */
  predicate UpstreamOk(up: Upstream) {
    up.Response? && up.status == 200 && up.body.Some? && UpstreamArticles(up.body.value).Some?
  }

  function UpstreamOf(category: Option<string>, fetch: string -> Upstream): Upstream {
    fetch(ApiUrl(RequestedCategory(category)))
  }

  /** `GET /fetch` as written. `session` is not in scope in the handler, so
      a filter asking for internal articles raises a NameError that ends in
      a 500; the parameter is there only to match `FetchNewsIntended`. */
  function FetchNews(category: Option<string>, filter: FilterArg, session: Session, fetch: string -> Upstream): (r: NewsResponse)
    ensures UpstreamOf(category, fetch).Unreachable? ==> r == NewsErr(RequestFailed)
    ensures UpstreamOf(category, fetch).Response? && UpstreamOf(category, fetch).status != 200 ==>
              r == NewsErr(UpstreamStatus(UpstreamOf(category, fetch).status))
    ensures UpstreamOk(UpstreamOf(category, fetch)) && filter.Unparsable? ==> r == NewsErr(InvalidFilter)
    ensures r.NewsOk? ==>
              var up := UpstreamOf(category, fetch);
              && UpstreamOk(up)
              && r.category == RequestedCategory(category)
              && TransformArticles(UpstreamArticles(up.body.value).value) == Some(r.items)
              && |r.items| <= MaxArticles
              && !filter.Unparsable?
              && !(FilterOptions(filter).JObj? && ShowInternal(FilterOptions(filter).fields))
    ensures UpstreamOk(UpstreamOf(category, fetch)) && !filter.Unparsable? && !FilterOptions(filter).JObj? ==>
              r == NewsErr(InternalError)
    ensures UpstreamOk(UpstreamOf(category, fetch)) && !filter.Unparsable?
            && FilterOptions(filter).JObj? && ShowInternal(FilterOptions(filter).fields) ==>
              r == NewsErr(InternalError)
    ensures UpstreamOf(category, fetch).Response? && UpstreamOf(category, fetch).status == 200
            && !UpstreamOk(UpstreamOf(category, fetch)) ==>
              r == NewsErr(InternalError)
    ensures UpstreamOk(UpstreamOf(category, fetch)) && !filter.Unparsable?
            && FilterOptions(filter).JObj? && !ShowInternal(FilterOptions(filter).fields) ==>
              var items := TransformArticles(UpstreamArticles(UpstreamOf(category, fetch).body.value).value);
              r == if items.Some? then NewsOk(RequestedCategory(category), items.value) else NewsErr(InternalError)
  {
    var cat := RequestedCategory(category);
    match fetch(ApiUrl(cat))
    case Unreachable => NewsErr(RequestFailed)
    case Response(status, body) =>
      if status != 200 then NewsErr(UpstreamStatus(status))
      else if body.None? then NewsErr(InternalError)
      else
        match UpstreamArticles(body.value)
        case None => NewsErr(InternalError)
        case Some(articles) =>
          if filter.Unparsable? then NewsErr(InvalidFilter)
          else
            var options := FilterOptions(filter);
            if !options.JObj? then NewsErr(InternalError)
            else if ShowInternal(options.fields) then NewsErr(InternalError)
            else
              match TransformArticles(articles)
              case None => NewsErr(InternalError)
              case Some(items) =>
                assert articles.ArticleText? ==> items == [];
                NewsOk(cat, items)
  }

  /** Only the URL of the mapped category is requested: two upstreams that
      agree on it give the same response. */
  lemma OnlyMappedCategoryFetched(category: Option<string>, filter: FilterArg, session: Session,
                                  f: string -> Upstream, g: string -> Upstream)
    requires f(ApiUrl(RequestedCategory(category))) == g(ApiUrl(RequestedCategory(category)))
    ensures FetchNews(category, filter, session, f) == FetchNews(category, filter, session, g)
    ensures FetchNewsIntended(category, filter, session, f) == FetchNewsIntended(category, filter, session, g)
  {
  }

  /** Without a filter the response lists exactly the projected upstream
      articles, so the internal ones never appear. The upstream object may
      carry other keys (`status`, `totalResults`) beside `articles`. */
  lemma DefaultFilterShowsUpstreamOnly(category: Option<string>, session: Session, fetch: string -> Upstream, m: map<string, Json>, xs: seq<Json>)
    requires UpstreamOf(category, fetch) == Response(200, Some(JObj(m))) && "articles" in m && m["articles"] == JArr(xs)
    requires forall i :: 0 <= i < |xs| ==> xs[i].JObj?
    ensures FetchNews(category, NoFilter, session, fetch)
              == NewsOk(RequestedCategory(category), TransformAll(Take(xs, MaxArticles)).value)
    ensures FetchNewsIntended(category, NoFilter, session, fetch)
              == FetchNews(category, NoFilter, session, fetch)
  {
    var t := Take(xs, MaxArticles);
    assert forall i :: 0 <= i < |t| ==> t[i] == xs[i];
  }

  /** The handler with `session` imported: a non-admin asking for internal
      articles gets a 403, the admin gets them ahead of the upstream ones. */
  function FetchNewsIntended(category: Option<string>, filter: FilterArg, session: Session, fetch: string -> Upstream): (r: NewsResponse)
    ensures UpstreamOf(category, fetch).Unreachable? ==> r == NewsErr(RequestFailed)
    ensures UpstreamOf(category, fetch).Response? && UpstreamOf(category, fetch).status != 200 ==>
              r == NewsErr(UpstreamStatus(UpstreamOf(category, fetch).status))
    ensures UpstreamOk(UpstreamOf(category, fetch)) && filter.Unparsable? ==> r == NewsErr(InvalidFilter)
    ensures r.NewsOk? ==> UpstreamOk(UpstreamOf(category, fetch)) && r.category == RequestedCategory(category)
    ensures r.NewsOk? && FilterOptions(filter).JObj? && ShowInternal(FilterOptions(filter).fields) ==>
              session.user == Some("admin")
    ensures UpstreamOk(UpstreamOf(category, fetch)) && !filter.Unparsable? && !FilterOptions(filter).JObj? ==>
              r == NewsErr(InternalError)
    ensures UpstreamOk(UpstreamOf(category, fetch)) && !filter.Unparsable?
            && FilterOptions(filter).JObj? && ShowInternal(FilterOptions(filter).fields)
            && session.user != Some("admin") ==>
              r == NewsErr(Unauthorized)
    ensures r.NewsOk? && !(FilterOptions(filter).JObj? && ShowInternal(FilterOptions(filter).fields)) ==>
              TransformArticles(UpstreamArticles(UpstreamOf(category, fetch).body.value).value) == Some(r.items)
    ensures r.NewsOk? && FilterOptions(filter).JObj? && ShowInternal(FilterOptions(filter).fields) ==>
              var articles := UpstreamArticles(UpstreamOf(category, fetch).body.value).value;
              articles.ArticleList? && TransformAll(InternalNews + articles.items) == Some(r.items)
    ensures UpstreamOf(category, fetch).Response? && UpstreamOf(category, fetch).status == 200
            && !UpstreamOk(UpstreamOf(category, fetch)) ==>
              r == NewsErr(InternalError)
    ensures UpstreamOk(UpstreamOf(category, fetch)) && !filter.Unparsable?
            && FilterOptions(filter).JObj? && !ShowInternal(FilterOptions(filter).fields) ==>
              var items := TransformArticles(UpstreamArticles(UpstreamOf(category, fetch).body.value).value);
              r == if items.Some? then NewsOk(RequestedCategory(category), items.value) else NewsErr(InternalError)
    ensures UpstreamOk(UpstreamOf(category, fetch)) && !filter.Unparsable?
            && FilterOptions(filter).JObj? && ShowInternal(FilterOptions(filter).fields)
            && session.user == Some("admin") ==>
              var articles := UpstreamArticles(UpstreamOf(category, fetch).body.value).value;
              r == if articles.ArticleList? && TransformAll(InternalNews + articles.items).Some?
                   then NewsOk(RequestedCategory(category), TransformAll(InternalNews + articles.items).value)
                   else NewsErr(InternalError)
  {
    var cat := RequestedCategory(category);
    match fetch(ApiUrl(cat))
    case Unreachable => NewsErr(RequestFailed)
    case Response(status, body) =>
      if status != 200 then NewsErr(UpstreamStatus(status))
      else if body.None? then NewsErr(InternalError)
      else
        match UpstreamArticles(body.value)
        case None => NewsErr(InternalError)
        case Some(articles) =>
          if filter.Unparsable? then NewsErr(InvalidFilter)
          else
            var options := FilterOptions(filter);
            if !options.JObj? then NewsErr(InternalError)
            else if ShowInternal(options.fields) then
              if session.user != Some("admin") then NewsErr(Unauthorized)
              else
                match articles
                case ArticleText(_) => NewsErr(InternalError)
                case ArticleList(xs) =>
                  match TransformAll(InternalNews + xs)
                  case None => NewsErr(InternalError)
                  case Some(items) => NewsOk(cat, items)
            else
              match TransformArticles(articles)
              case None => NewsErr(InternalError)
              case Some(items) => NewsOk(cat, items)
  }

  /** The filter that asks for internal articles. */
  const ShowInternalFilter := Parsed(JObj(map["showInternal" := JBool(true)]))

  /** As written, even the admin asking for internal articles gets a 500. */
  lemma AdminInternalRequestFails(category: Option<string>, fetch: string -> Upstream, m: map<string, Json>, xs: seq<Json>)
    requires UpstreamOf(category, fetch) == Response(200, Some(JObj(m))) && "articles" in m && m["articles"] == JArr(xs)
    ensures FetchNews(category, ShowInternalFilter, Session(Some("admin"), None), fetch) == NewsErr(InternalError)
  {
    assert ShowInternal(ShowInternalFilter.value.fields);
  }

  lemma InternalNewsAreObjects()
    ensures forall i :: 0 <= i < |InternalNews| ==> InternalNews[i].JObj?
    ensures TransformAll(InternalNews).Some? && |TransformAll(InternalNews).value| == 3
  {
  }

  /** With the import in place the admin sees the three internal articles
      first, then the upstream ones. */
  lemma AdminSeesInternalFirst(category: Option<string>, fetch: string -> Upstream, m: map<string, Json>, xs: seq<Json>)
    requires UpstreamOf(category, fetch) == Response(200, Some(JObj(m))) && "articles" in m && m["articles"] == JArr(xs)
    requires forall i :: 0 <= i < |xs| ==> xs[i].JObj?
    ensures FetchNewsIntended(category, ShowInternalFilter, Session(Some("admin"), None), fetch)
              == NewsOk(RequestedCategory(category),
                        TransformAll(InternalNews).value + TransformAll(Take(xs, MaxArticles)).value)
  {
    var t := Take(xs, MaxArticles);
    assert forall i :: 0 <= i < |t| ==> t[i] == xs[i];
    assert UpstreamArticles(JObj(m)) == Some(ArticleList(t));
    assert ShowInternal(ShowInternalFilter.value.fields);
    InternalNewsAreObjects();
    TransformAllAppend(InternalNews, t);
  }

  /** Unless a filter asks for internal articles, the corrected handler
      answers exactly as the one written, so the import changes nothing
      else. */
  lemma IntendedMatchesWrittenWithoutFlag(category: Option<string>, filter: FilterArg, session: Session,
                                          fetch: string -> Upstream)
    requires filter.Unparsable? || !FilterOptions(filter).JObj? || !ShowInternal(FilterOptions(filter).fields)
    ensures FetchNewsIntended(category, filter, session, fetch) == FetchNews(category, filter, session, fetch)
  {
  }

  /** ... and anyone else asking for them is refused. */
  lemma OthersRefusedInternal(category: Option<string>, fetch: string -> Upstream, m: map<string, Json>, xs: seq<Json>, session: Session)
    requires UpstreamOf(category, fetch) == Response(200, Some(JObj(m))) && "articles" in m && m["articles"] == JArr(xs)
    requires session.user != Some("admin")
    ensures FetchNewsIntended(category, ShowInternalFilter, session, fetch) == NewsErr(Unauthorized)
  {
    assert ShowInternal(ShowInternalFilter.value.fields);
  }
}

=== FILE: notes.dfy ===
/** Notes: the `Note` model of bokohacks/Boko-Hacks-2025/models/note.py
    (field validation, the per-user listing, the retention purge, the log
    representation) and the `create_note` and `search_notes` handlers of
    bokohacks/Boko-Hacks-2025/routes/notes.py. Timestamps are whole
    seconds supplied by the caller. */
module Notes {
  import opened Common
  import opened Text
  import opened Html
  import opened Credentials

  const MaxTitleLength := 200
  const ReprTitleLength := 20
  const SecondsPerDay := 86400
  const DefaultRetentionDays := 30

  datatype Note = Note(id: nat, title: string, content: string, createdAt: int, userId: nat)

  datatype Field = Title | Content

  datatype NoteError =
    | EmptyField(field: Field)  // "Title cannot be empty." / "Content cannot be empty."
    | TitleTooLong              // "Title length exceeds 200 characters."

  // ------------------------------------------------------------- the model

  /** The `@validates('title', 'content')` hook: an accepted value is
      returned as it is, not trimmed. */
  function ValidateField(field: Field, value: Option<string>): (r: Result<string, NoteError>)
    ensures r.Ok? <==> value.Some? && !IsBlank(value.value) && (field == Title ==> |value.value| <= MaxTitleLength)
    ensures r.Ok? ==> r.value == value.value
    ensures (value.None? || IsBlank(value.value)) ==> r == Err(EmptyField(field))
    ensures value.Some? && !IsBlank(value.value) && r.Err? ==> r == Err(TitleTooLong)
  {
    if value.None? || value.value == "" then Err(EmptyField(field))
    else
      StripShape(value.value);
      if Strip(value.value) == "" then Err(EmptyField(field))
      else if field == Title && |value.value| > MaxTitleLength then Err(TitleTooLong)
      else Ok(value.value)
  }

  /** `Note(title=..., content=..., created_at=..., user_id=...)`: the
      keyword arguments are assigned, and validated, in that order. */
  function MakeNote(id: nat, title: string, content: string, createdAt: int, userId: nat): (r: Result<Note, NoteError>)
    ensures r.Ok? <==> ValidateField(Title, Some(title)).Ok? && ValidateField(Content, Some(content)).Ok?
    ensures r.Ok? ==> r.value == Note(id, title, content, createdAt, userId)
    ensures r.Err? && ValidateField(Title, Some(title)).Err? ==> r.error == ValidateField(Title, Some(title)).error
  {
    match ValidateField(Title, Some(title))
    case Err(e) => Err(e)
    case Ok(t) =>
      match ValidateField(Content, Some(content))
      case Err(e) => Err(e)
      case Ok(c) => Ok(Note(id, t, c, createdAt, userId))
  }

  /** `__repr__`: the title cut to its first 20 characters. */
  function NoteRepr(n: Note): (r: string)
    ensures |n.title| <= ReprTitleLength ==> r == "<Note " + n.title + "...>"
    ensures |n.title| > ReprTitleLength ==> r == "<Note " + n.title[..ReprTitleLength] + "...>"
  {
    "<Note " + Take(n.title, ReprTitleLength) + "...>"
  }

  /** The representation depends only on the first 20 characters of the
      title: nothing past them reaches the log. */
  lemma ReprIgnoresTitleTail(n: Note, m: Note)
    requires |n.title| >= ReprTitleLength && |m.title| >= ReprTitleLength
    requires n.title[..ReprTitleLength] == m.title[..ReprTitleLength]
    ensures NoteRepr(n) == NoteRepr(m)
  {
  }

  // ------------------------------------------------------ the user listing

  predicate NewestFirst(s: seq<Note>) {
    forall i, j :: 0 <= i < j < |s| ==> s[i].createdAt >= s[j].createdAt
  }

  /** No note of `s` is newer than `t`. */
  predicate NoneNewerThan(t: int, s: seq<Note>) {
    forall j :: 0 <= j < |s| ==> s[j].createdAt <= t
  }

  lemma PrependNewest(h: Note, s: seq<Note>)
    requires NewestFirst(s) && NoneNewerThan(h.createdAt, s)
    ensures NewestFirst([h] + s)
  {
    forall i, j | 0 <= i < j < |[h] + s| ensures ([h] + s)[i].createdAt >= ([h] + s)[j].createdAt {
      assert ([h] + s)[j] == s[j - 1];
      if i > 0 {
        assert ([h] + s)[i] == s[i - 1];
      }
    }
  }

  /** A bound on the notes of `s` and on `n` bounds every note of a
      sequence holding exactly those notes. */
  lemma BoundOfPermutation(t: int, s: seq<Note>, n: Note, r: seq<Note>)
    requires NoneNewerThan(t, s) && n.createdAt <= t
    requires multiset(r) == multiset(s) + multiset{n}
    ensures NoneNewerThan(t, r)
  {
    forall j | 0 <= j < |r| ensures r[j].createdAt <= t {
      assert r[j] in multiset(r);
      if r[j] != n {
        assert r[j] in multiset(s);
        var k :| 0 <= k < |s| && s[k] == r[j];
      }
    }
  }

  /** Places `n` before the first note that is not newer than it. */
  function InsertNewest(n: Note, s: seq<Note>): (r: seq<Note>)
    requires NewestFirst(s)
    ensures NewestFirst(r)
    ensures multiset(r) == multiset(s) + multiset{n}
    decreases |s|
  {
    if |s| == 0 then [n]
    else if n.createdAt >= s[0].createdAt then
      PrependNewest(n, s);
      [n] + s
    else
      assert s == [s[0]] + s[1..];
      var rest := InsertNewest(n, s[1..]);
      BoundOfPermutation(s[0].createdAt, s[1..], n, rest);
      PrependNewest(s[0], rest);
      [s[0]] + rest
  }

  /** `ORDER BY created_at DESC`, newest first. */
  function SortNewest(s: seq<Note>): (r: seq<Note>)
    ensures NewestFirst(r)
    ensures multiset(r) == multiset(s)
    decreases |s|
  {
    if |s| == 0 then []
    else
      assert s == [s[0]] + s[1..];
      InsertNewest(s[0], SortNewest(s[1..]))
  }

  predicate OwnedBy(userId: nat, n: Note) {
    n.userId == userId
  }

  /** `Note.get_user_notes(user_id)`: exactly the notes of that user (each
      as often as it is stored), newest first. */
  function UserNotes(notes: seq<Note>, userId: nat): (r: seq<Note>)
    ensures NewestFirst(r)
    ensures forall n :: multiset(r)[n] == if n.userId == userId then multiset(notes)[n] else 0
    ensures forall n :: n in r <==> n in notes && n.userId == userId
  {
    var mine := Filter(notes, n => OwnedBy(userId, n));
    FilterCounts(notes, n => OwnedBy(userId, n));
    var r := SortNewest(mine);
    assert forall n :: n in r <==> n in multiset(mine);
    r
  }

  // ------------------------------------------------------- the retention purge

  /** `datetime.utcnow() - timedelta(days=days)`, in seconds. */
  function Cutoff(now: int, days: int): int {
    now - days * SecondsPerDay
  }

  predicate Retained(cutoff: int, n: Note) {
    n.createdAt >= cutoff
  }

  /** `Note.delete_old_notes(days)`: removes the notes created strictly
      before the cutoff and keeps every other note, in order. */
  function DeleteOldNotes(notes: seq<Note>, now: int, days: int): (r: seq<Note>)
    ensures forall n :: n in r <==> n in notes && n.createdAt >= now - days * SecondsPerDay
    ensures forall n :: multiset(r)[n] == if n.createdAt < now - days * SecondsPerDay then 0 else multiset(notes)[n]
  {
    var cutoff := Cutoff(now, days);
    FilterCounts(notes, n => Retained(cutoff, n));
    Filter(notes, n => Retained(cutoff, n))
  }

  /** A second purge at the same instant removes nothing more. */
  lemma DeleteOldNotesIdempotent(notes: seq<Note>, now: int, days: int)
    ensures DeleteOldNotes(DeleteOldNotes(notes, now, days), now, days) == DeleteOldNotes(notes, now, days)
  {
    var cutoff := Cutoff(now, days);
    FilterIdempotent(notes, n => Retained(cutoff, n));
  }

  // ---------------------------------------------------------- create_note

  datatype CreateOutcome =
    | Created(note: Note)
    | RedirectToLogin       // no user in the session
    | UserNotFound          // 404
    | FieldsRequired        // 400 "Title and content are required"
    | Rejected(error: NoteError)  // validator raised inside the try: rolled back, 500

  function CreateStatus(o: CreateOutcome): int {
    match o
    case Created(_) => 200
    case RedirectToLogin => 302
    case UserNotFound => 404
    case FieldsRequired => 400
    case Rejected(_) => 500
  }

  datatype CreateResult = CreateResult(notes: seq<Note>, outcome: CreateOutcome)

  /** The notes' primary key. */
  function NoteId(n: Note): nat { n.id }

  /** POST `/apps/notes/create` at local time `now`. Both fields are
      escaped first; the validators then see the escaped text. */
  function CreateNote(users: seq<User>, notes: seq<Note>, session: Session,
                      title: Option<string>, content: Option<string>, now: int): (r: CreateResult)
    ensures r.outcome.Created? <==>
              && session.user.Some? && UsernameTaken(users, session.user.value)
              && Present(title) && Present(content)
              && !IsBlank(title.value) && !IsBlank(content.value)
              && |Escape(title.value)| <= MaxTitleLength
    ensures !r.outcome.Created? ==> r.notes == notes
    ensures r.outcome.Created? ==>
              && r.notes == notes + [r.outcome.note]
              && r.outcome.note.title == Escape(title.value)
              && r.outcome.note.content == Escape(content.value)
              && r.outcome.note.createdAt == now
              && r.outcome.note.userId == FindUser(users, session.user).value.id
              && forall i :: 0 <= i < |notes| ==> notes[i].id != r.outcome.note.id
    ensures session.user.None? ==> r.outcome == RedirectToLogin
    ensures session.user.Some? && !UsernameTaken(users, session.user.value) ==> r.outcome == UserNotFound
    ensures (session.user.Some? && UsernameTaken(users, session.user.value) && (!Present(title) || !Present(content)))
              ==> r.outcome == FieldsRequired
    ensures (session.user.Some? && UsernameTaken(users, session.user.value) && Present(title) && Present(content)
             && !r.outcome.Created?) ==> r.outcome.Rejected?
  {
    if session.user.None? then CreateResult(notes, RedirectToLogin)
    else
      match FindUser(users, session.user)
      case None => CreateResult(notes, UserNotFound)
      case Some(owner) =>
        if !Present(title) || !Present(content) then CreateResult(notes, FieldsRequired)
        else StoreNote(notes, owner.id, title.value, content.value, now)
  }

  /** The `try` block of `create_note`: the escaped fields go through the
      validators, and a refusal is the handler's 500. */
  function StoreNote(notes: seq<Note>, ownerId: nat, title: string, content: string, now: int): (r: CreateResult)
    ensures r.outcome.Created? <==> !IsBlank(title) && !IsBlank(content) && |Escape(title)| <= MaxTitleLength
    ensures !r.outcome.Created? ==> r.outcome.Rejected? && r.notes == notes
    ensures r.outcome.Created? ==>
              && r.notes == notes + [r.outcome.note]
              && r.outcome.note == Note(r.outcome.note.id, Escape(title), Escape(content), now, ownerId)
              && forall i :: 0 <= i < |notes| ==> notes[i].id != r.outcome.note.id
  {
    var t := Escape(title);
    var c := Escape(content);
    EscapeBlank(title);
    EscapeBlank(content);
    match MakeNote(NextId(notes, NoteId), t, c, now, ownerId)
    case Ok(n) => CreateResult(notes + [n], Created(n))
    case Err(e) => CreateResult(notes, Rejected(e))
  }

  /** Escaping keeps whitespace and turns every other character into
      non-whitespace, so a field is blank after escaping exactly when it
      was blank before. */
  lemma {:induction false} EscapeBlank(s: string)
    ensures IsBlank(Escape(s)) <==> IsBlank(s)
    decreases |s|
  {
    if |s| > 0 {
      EscapeBlank(s[1..]);
      var e := EscapeChar(s[0]);
      var rest := Escape(s[1..]);
      assert Escape(s) == e + rest;
      assert e[0] == '&' || e == [s[0]];
      if IsBlank(e + rest) {
        assert IsSpace((e + rest)[0]);
        assert forall i :: 0 <= i < |rest| ==> rest[i] == (e + rest)[|e| + i];
      }
      if IsBlank(s) {
        assert IsSpace(s[0]) && e == [s[0]];
        assert forall i :: 1 <= i < |s| ==> s[i] == s[1..][i - 1];
      }
      if IsBlank(s[1..]) && IsSpace(s[0]) {
        assert forall i :: 1 <= i < |s| ==> s[i] == s[1..][i - 1];
      }
    }
  }

  /** A created note shows, once rendered, exactly the submitted title and
      content. */
  lemma CreatedNoteRendersInput(users: seq<User>, notes: seq<Note>, session: Session,
                                title: Option<string>, content: Option<string>, now: int)
    requires CreateNote(users, notes, session, title, content, now).outcome.Created?
    ensures var n := CreateNote(users, notes, session, title, content, now).outcome.note;
            Unescape(n.title) == title.value && Unescape(n.content) == content.value
  {
    UnescapeEscape(title.value);
    UnescapeEscape(content.value);
  }

  /** A created note is listed among its owner's notes. */
  lemma CreatedNoteListed(users: seq<User>, notes: seq<Note>, session: Session,
                          title: Option<string>, content: Option<string>, now: int)
    requires CreateNote(users, notes, session, title, content, now).outcome.Created?
    ensures var r := CreateNote(users, notes, session, title, content, now);
            r.outcome.note in UserNotes(r.notes, r.outcome.note.userId)
  {
    var r := CreateNote(users, notes, session, title, content, now);
    assert r.outcome.note in r.notes;
  }

  /** Each `<` grows to four characters when escaped. */
  lemma {:induction false} EscapeOpeningBrackets(s: string)
    requires forall i :: 0 <= i < |s| ==> s[i] == '<'
    ensures |Escape(s)| == 4 * |s|
    decreases |s|
  {
    if |s| > 0 {
      EscapeOpeningBrackets(s[1..]);
    }
  }

  /** A field of whitespace only passes the route's own presence check
      and is refused by the validator inside the `try`: a 500, not the
      400 the route gives for a missing field. */
  lemma BlankFieldIsServerError(users: seq<User>, notes: seq<Note>, session: Session,
                                title: string, content: string, now: int)
    requires session.user.Some? && UsernameTaken(users, session.user.value)
    requires title != "" && content != ""
    requires IsBlank(title) || IsBlank(content)
    ensures CreateStatus(CreateNote(users, notes, session, Some(title), Some(content), now).outcome) == 500
    ensures CreateNote(users, notes, session, Some(title), Some(content), now).notes == notes
  {
  }

  /** The 200-character limit applies to the escaped title: 51 `<`
      characters are well under the limit as typed and are rejected. */
  lemma EscapedTitleOverLimit(users: seq<User>, notes: seq<Note>, session: Session,
                              title: string, content: string, now: int)
    requires session.user.Some? && UsernameTaken(users, session.user.value)
    requires |title| == 51 && forall i :: 0 <= i < |title| ==> title[i] == '<'
    requires !IsBlank(content)
    ensures |title| <= MaxTitleLength
    ensures CreateNote(users, notes, session, Some(title), Some(content), now)
            == CreateResult(notes, Rejected(TitleTooLong))
  {
    EscapeOpeningBrackets(title);
    EscapeBlank(title);
    assert title[0] == '<';
    assert content != "";
  }

  // --------------------------------------------------------- search_notes

  /** One search hit as the handler returns it. */
  datatype NoteView = NoteView(id: nat, title: string, content: string)

  function View(n: Note): NoteView {
    NoteView(n.id, n.title, n.content)
  }

  /** `title LIKE '%q%' OR content LIKE '%q%'`, read as substring tests. */
  predicate Matches(q: string, n: Note) {
    Contains(n.title, q) || Contains(n.content, q)
  }

  datatype SearchResult =
    | Found(views: seq<NoteView>)
    | SearchUnauthorized   // 401
    | SearchUserNotFound   // 404

  function SearchStatus(r: SearchResult): int {
    match r
    case Found(_) => 200
    case SearchUnauthorized => 401
    case SearchUserNotFound => 404
  }

  /** The JSON list the handler builds from the matching rows. */
  function Views(hits: seq<Note>): (r: seq<NoteView>)
    ensures |r| == |hits|
    ensures forall k :: 0 <= k < |hits| ==> r[k] == View(hits[k])
  {
    seq(|hits|, k requires 0 <= k < |hits| => View(hits[k]))
  }

  /** The hits of a search are the views of the matching notes, and
      nothing else. */
  lemma SearchHits(notes: seq<Note>, query: string)
    ensures var views := Views(Filter(notes, n => Matches(query, n)));
            && (forall i :: 0 <= i < |notes| && Matches(query, notes[i]) ==> View(notes[i]) in views)
            && (forall k :: 0 <= k < |views| ==>
                  exists i :: 0 <= i < |notes| && Matches(query, notes[i]) && views[k] == View(notes[i]))
  {
    var hits := Filter(notes, n => Matches(query, n));
    var views := Views(hits);
    forall i | 0 <= i < |notes| && Matches(query, notes[i]) ensures View(notes[i]) in views {
      assert notes[i] in hits;
      var k :| 0 <= k < |hits| && hits[k] == notes[i];
      assert views[k] == View(notes[i]);
    }
    forall k | 0 <= k < |views|
      ensures exists i :: 0 <= i < |notes| && Matches(query, notes[i]) && views[k] == View(notes[i])
    {
      assert hits[k] in hits;
      var i :| 0 <= i < |notes| && notes[i] == hits[k];
    }
  }

  /** GET `/apps/notes/search?q=...` (`q` defaults to the empty string).
      The query runs over the whole table, whoever owns the notes. */
  function SearchNotes(users: seq<User>, notes: seq<Note>, session: Session, q: Option<string>): (r: SearchResult)
    ensures r.Found? <==> session.user.Some? && UsernameTaken(users, session.user.value)
    ensures session.user.None? ==> r == SearchUnauthorized
    ensures session.user.Some? && !UsernameTaken(users, session.user.value) ==> r == SearchUserNotFound
    ensures r.Found? ==>
              var query := if q.None? then "" else q.value;
              && (forall i :: 0 <= i < |notes| && Matches(query, notes[i]) ==> View(notes[i]) in r.views)
              && (forall k :: 0 <= k < |r.views| ==>
                    exists i :: 0 <= i < |notes| && Matches(query, notes[i]) && r.views[k] == View(notes[i]))
  {
    if session.user.None? then SearchUnauthorized
    else if FindUser(users, session.user).None? then SearchUserNotFound
    else
      var query := if q.None? then "" else q.value;
      SearchHits(notes, query);
      Found(Views(Filter(notes, n => Matches(query, n))))
  }

  /** Every string contains the empty string. */
  lemma ContainsEmpty(s: string)
    ensures Contains(s, "")
  {
    assert StartsWith(s, "");
  }

  /** Without `q` the search returns every note in the table, including
      other users' notes. */
  lemma EmptySearchListsAll(users: seq<User>, notes: seq<Note>, session: Session, i: nat)
    requires session.user.Some? && UsernameTaken(users, session.user.value)
    requires i < |notes|
    ensures View(notes[i]) in SearchNotes(users, notes, session, None).views
  {
    ContainsEmpty(notes[i].title);
  }
}

=== FILE: registration.dfy ===
/** The registration handlers. `Register` is the effective `/register`
    route of bokohacks/Boko-Hacks-2025/routes/register.py (the second
    definition in that file rebinds the blueprint and the view): text
    CAPTCHA, reCAPTCHA, duplicate check, then user creation inside a
    try/rollback. `LegacyRegister` and `VerifyCaptchaStatus` are the older
    Boko-Hacks-2025/routes/register.py: its own password check, a
    duplicate check, user creation with no exception handler, and the
    score-based CAPTCHA endpoint. */
module Registration {
  import opened Common
  import opened Text
  import opened Credentials

  datatype RegisterForm = RegisterForm(username: Option<string>, password: Option<string>, captcha: Option<string>)

  datatype RegisterOutcome =
    | Registered       // "Registration successful", redirect to the login page
    | CaptchaRejected  // "Invalid CAPTCHA", redirect back
    | UsernameExists   // "Username already exists", redirect back
    | CreationFailed   // exception inside the try block, rolled back
    | Crashed          // exception outside any handler: HTTP 500

  datatype RegisterResult = RegisterResult(users: seq<User>, session: Session, outcome: RegisterOutcome)

  /** The text CAPTCHA test: a non-empty stored text equal to the
      upper-cased response. */
  predicate CaptchaMatches(session: Session, form: RegisterForm) {
    && session.captchaText.Some? && session.captchaText.value != ""
    && form.captcha.Some? && Upper(form.captcha.value) == session.captchaText.value
  }

  /** Every condition under which the handler stores a user. */
  predicate AdmitsNewUser(users: seq<User>, form: RegisterForm) {
    && form.username.Some? && form.password.Some?
    && !UsernameTaken(users, form.username.value)
    && MinUsernameLength <= |Strip(form.username.value)| <= MaxUsernameLength
    && ValidatePassword(form.password.value)
    && !UsernameTaken(users, NormalizeUsername(form.username.value))
  }

  /** POST `/register`. `recaptchaOk` is what `verify_captcha` returns for
      the response token (the siteverify call is not modelled) and `salt`
      is the random salt of the new hash. */
  function Register(users: seq<User>, session: Session, form: RegisterForm, recaptchaOk: bool, salt: nat)
    : (r: RegisterResult)
    ensures r.session.user == session.user
    ensures r.outcome == Registered <==> CaptchaMatches(session, form) && recaptchaOk && AdmitsNewUser(users, form)
    ensures r.outcome != Registered ==> r.users == users
    ensures r.outcome == Registered ==>
              && |r.users| == |users| + 1 && r.users[..|users|] == users
              && r.users[|users|].username == NormalizeUsername(form.username.value)
              && (forall q :: CheckPassword(r.users[|users|], q) <==> q == form.password.value)
    ensures !CaptchaMatches(session, form) ==> r.session == session
    ensures CaptchaMatches(session, form) ==> r.session == session.(captchaText := None)
    ensures r.outcome == Crashed <==> session.captchaText.Some? && session.captchaText.value != "" && form.captcha.None?
  {
    var stored := session.captchaText;
    if stored.None? || stored.value == "" then RegisterResult(users, session, CaptchaRejected)
    else if form.captcha.None? then RegisterResult(users, session, Crashed)  // None.upper()
    else if Upper(form.captcha.value) != stored.value then RegisterResult(users, session, CaptchaRejected)
    else
      var popped := session.(captchaText := None);
      if !recaptchaOk then RegisterResult(users, popped, CaptchaRejected)
      else if FindUser(users, form.username).Some? then RegisterResult(users, popped, UsernameExists)
      else
        match NewUser(users, form.username, form.password, salt)
        case Ok(u) =>
          assert (users + [u])[..|users|] == users;
          RegisterResult(users + [u], popped, Registered)
        case Err(_) => RegisterResult(users, popped, CreationFailed)
  }

  /** The `users` invariant survives every registration attempt. */
  lemma RegisterKeepsWellFormed(users: seq<User>, session: Session, form: RegisterForm, recaptchaOk: bool, salt: nat)
    requires UsersWellFormed(users)
    ensures UsersWellFormed(Register(users, session, form, recaptchaOk, salt).users)
  {
    if Register(users, session, form, recaptchaOk, salt).outcome == Registered {
      NewUserKeepsWellFormed(users, form.username, form.password, salt);
    }
  }

  /** A successful registration appends one user, under the normalised
      name, with a non-empty password that checks. */
  lemma RegisteredUserIsLast(users: seq<User>, session: Session, form: RegisterForm, recaptchaOk: bool, salt: nat)
    returns (u: User)
    requires UsersWellFormed(users)
    requires Register(users, session, form, recaptchaOk, salt).outcome == Registered
    ensures Register(users, session, form, recaptchaOk, salt).users == users + [u]
    ensures UsersWellFormed(users + [u])
    ensures form.username.Some? && u.username == NormalizeUsername(form.username.value)
    ensures form.password.Some? && form.password.value != "" && CheckPassword(u, form.password.value)
  {
    var r := Register(users, session, form, recaptchaOk, salt);
    RegisterKeepsWellFormed(users, session, form, recaptchaOk, salt);
    assert AdmitsNewUser(users, form);
    u := LastOfAppended(users, r.users, form.password.value);
  }

  /** The row a registration appended, as the handler's result shows it. */
  lemma LastOfAppended(users: seq<User>, grown: seq<User>, password: string) returns (u: User)
    requires |grown| == |users| + 1 && grown[..|users|] == users
    requires forall q :: CheckPassword(grown[|users|], q) <==> q == password
    requires ValidatePassword(password)
    ensures u == grown[|users|] && grown == users + [u]
    ensures password != "" && CheckPassword(u, password)
  {
    u := grown[|users|];
    assert grown == grown[..|users|] + [u];
  }

  /** The same, for a name submitted already in normal form: the stored
      name is the submitted one. */
  lemma RegisteredNameKept(users: seq<User>, session: Session, form: RegisterForm, recaptchaOk: bool, salt: nat)
    returns (u: User)
    requires UsersWellFormed(users)
    requires Register(users, session, form, recaptchaOk, salt).outcome == Registered
    requires form.username.Some? && IsNormalizedUsername(form.username.value)
    ensures Register(users, session, form, recaptchaOk, salt).users == users + [u]
    ensures UsersWellFormed(users + [u])
    ensures u.username == form.username.value
    ensures form.password.Some? && form.password.value != "" && CheckPassword(u, form.password.value)
  {
    u := RegisteredUserIsLast(users, session, form, recaptchaOk, salt);
    NormalizedFixpoint(form.username.value);
  }

  /** A CAPTCHA text admits at most one attempt: whatever the first
      attempt's outcome, a second attempt in the resulting session is
      rejected at the CAPTCHA check and stores nothing. */
  lemma {:induction false} CaptchaSingleUse(users: seq<User>, session: Session, form: RegisterForm, recaptchaOk: bool, salt: nat,
                         form2: RegisterForm, recaptchaOk2: bool, salt2: nat)
    requires CaptchaMatches(session, form)
    ensures var r := Register(users, session, form, recaptchaOk, salt);
            var r2 := Register(r.users, r.session, form2, recaptchaOk2, salt2);
            r2.outcome == CaptchaRejected && r2.users == r.users
  {
  }

  /** A name that normalises to a stored username is never registered a
      second time, in whatever case or padding it is submitted: either the
      raw lookup finds it or the unique column rejects it at commit. */
  lemma DuplicateIdentityRejected(users: seq<User>, session: Session, form: RegisterForm, recaptchaOk: bool, salt: nat)
    requires form.username.Some?
    requires UsernameTaken(users, NormalizeUsername(form.username.value))
    ensures Register(users, session, form, recaptchaOk, salt).outcome != Registered
    ensures Register(users, session, form, recaptchaOk, salt).users == users
  {
  }

  /** The duplicate check compares the raw submitted name: a case variant
      of a stored name passes it and fails only at commit, which the
      handler reports as a generic failure rather than as a taken name. */
  lemma CaseVariantFailsAtCommit(users: seq<User>, session: Session, form: RegisterForm, salt: nat)
    requires CaptchaMatches(session, form)
    requires form.username.Some? && !UsernameTaken(users, form.username.value)
    requires UsernameTaken(users, NormalizeUsername(form.username.value))
    ensures Register(users, session, form, true, salt).outcome == CreationFailed
  {
  }

  // ------------------------------------------------------ the older handlers

  /** The special characters the older handler's own check accepts. */
  const LegacySpecials: string := "!@#$%^&*()-_=+[]{};:'\",.<>?/|\\`~"

  /** The older handler's password check: at least eight characters, a
      digit and one of `LegacySpecials`; any other characters are allowed. */
  predicate LegacyPasswordOk(p: string) {
    && |p| >= 8
    && (exists i :: 0 <= i < |p| && IsAsciiDigit(p[i]))
    && (exists i :: 0 <= i < |p| && p[i] in LegacySpecials)
  }

  datatype LegacyOutcome =
    | LegacyRegistered
    | PasswordRejected
    | LegacyUsernameExists
    | LegacyCrashed    // an exception with no handler: HTTP 500

  datatype LegacyResult = LegacyResult(users: seq<User>, outcome: LegacyOutcome)

  /** POST `/register` of the older handler. */
  function LegacyRegister(users: seq<User>, username: Option<string>, password: Option<string>, salt: nat)
    : (r: LegacyResult)
    ensures r.outcome != LegacyRegistered ==> r.users == users
    ensures r.outcome == LegacyRegistered <==>
              && password.Some? && LegacyPasswordOk(password.value)
              && AdmitsNewUser(users, RegisterForm(username, password, None))
    ensures r.outcome == LegacyRegistered ==>
              && |r.users| == |users| + 1 && r.users[..|users|] == users
              && r.users[|users|].username == NormalizeUsername(username.value)
    ensures password.Some? && !LegacyPasswordOk(password.value) ==> r.outcome == PasswordRejected
    ensures password.None? ==> r.outcome == LegacyCrashed
    ensures password.Some? && LegacyPasswordOk(password.value) && FindUser(users, username).Some? ==>
              r.outcome == LegacyUsernameExists
  {
    if password.None? then LegacyResult(users, LegacyCrashed)  // len(None)
    else if !LegacyPasswordOk(password.value) then LegacyResult(users, PasswordRejected)
    else if FindUser(users, username).Some? then LegacyResult(users, LegacyUsernameExists)
    else
      match NewUser(users, username, password, salt)
      case Ok(u) =>
        assert (users + [u])[..|users|] == users;
        LegacyResult(users + [u], LegacyRegistered)
      case Err(_) => LegacyResult(users, LegacyCrashed)
  }

  /** Every password the policy regex accepts also passes the older check. */
  lemma PolicyImpliesLegacyCheck(p: string)
    requires ValidatePassword(p)
    ensures LegacyPasswordOk(p)
  {
    var q := if MeetsPolicy(p) then p else p[..|p| - 1];
    assert MeetsPolicy(q);
    var d :| 0 <= d < |q| && InClass(q[d], Digit);
    var s :| 0 <= s < |q| && InClass(q[s], Special);
    assert q[d] == p[d] && q[s] == p[s];
    assert p[s] in PasswordSpecials;
    assert p[s] in LegacySpecials;
  }

  /** The older check lets through passwords the regex rejects (a `#`, a
      space or a `-`, say); `set_password` then raises outside any handler,
      so the request fails with HTTP 500 and nothing is stored. */
  lemma LegacyCheckWeakerThanPolicy(users: seq<User>, username: Option<string>, p: string, salt: nat, i: nat)
    requires LegacyPasswordOk(p)
    requires i < |p| && !IsPasswordChar(p[i]) && p[i] != '\n'
    requires FindUser(users, username).None?
    ensures LegacyRegister(users, username, Some(p), salt) == LegacyResult(users, LegacyCrashed)
  {
    ForeignCharRejected(p, i);
  }

  /** A password of that kind. */
  lemma LegacyOnlyExample()
    ensures LegacyPasswordOk("abcdefg1#") && !IsPasswordChar("abcdefg1#"[8])
  {
    assert IsAsciiDigit("abcdefg1#"[7]);
    assert "abcdefg1#"[8] in LegacySpecials;
  }

  /** `score >= 2` on a decoded JSON value: numbers compare, a bool is the
      integer 0 or 1, anything else raises TypeError (HTTP 500). */
  function ScoreStatus(score: Json): (status: int)
    ensures status == 200 <==> score.JNum? && score.n >= 2.0
    ensures status == 500 <==> !score.JNum? && !score.JBool?
    ensures status == 400 <==> (score.JNum? && score.n < 2.0) || score.JBool?
  {
    match score
    case JNum(x) => if x >= 2.0 then 200 else 400
    case JBool(_) => 400
    case _ => 500
  }

  /** POST `/register/verify-captcha` with the decoded request body
      (`None` when there is no JSON body). `"score" in data` on a list
      tests membership and on a string tests for a substring; the
      subsequent `data["score"]` on either, and `in` on a number or bool,
      raise TypeError. */
  function VerifyCaptchaStatus(data: Option<Json>): (status: int)
    ensures status == 200 || status == 400 || status == 500
    ensures status == 200 <==> && data.Some? && data.value.JObj? && "score" in data.value.fields
                               && data.value.fields["score"].JNum? && data.value.fields["score"].n >= 2.0
    ensures data.None? || !Truthy(data.value) ==> status == 400
    ensures data.Some? && data.value.JObj? && "score" !in data.value.fields ==> status == 400
    ensures data.Some? && data.value.JObj? && "score" in data.value.fields ==>
              status == ScoreStatus(data.value.fields["score"])
    ensures status == 400 <==>
              || data.None? || !Truthy(data.value)
              || (data.value.JObj? && "score" !in data.value.fields)
              || (data.value.JObj? && var score := data.value.fields["score"];
                    (score.JNum? && score.n < 2.0) || score.JBool?)
              || (data.value.JArr? && JStr("score") !in data.value.items)
              || (data.value.JStr? && !Contains(data.value.s, "score"))
  {
    match data
    case None => 400
    case Some(j) =>
      if !Truthy(j) then 400
      else
        match j
        case JObj(m) => if "score" !in m then 400 else ScoreStatus(m["score"])
        case JArr(xs) => if JStr("score") in xs then 500 else 400
        case JStr(s) => if Contains(s, "score") then 500 else 400
        case _ => 500
  }
}

=== FILE: retirement.dfy ===
/** The 401k ledger of bokohacks/Boko-Hacks-2025/routes/retirement.py: per
    user, personal funds and a retirement balance. Reading the balance or
    contributing creates a missing account with 10000 in funds; a
    contribution moves money from funds to the balance with a 50% employer
    match; a reset restores the starting values. Amounts are exact reals. */
module Retirement {
  import opened Common

  const StartingFunds: real := 10000.0

  /** The employer adds half of every contribution. */
  const MatchRate: real := 0.5

  datatype Account = Account(funds: real, balance: real)

  const FreshAccount := Account(StartingFunds, 0.0)

  type Ledger = map<string, Account>

  datatype LedgerOutcome =
    | Shown(account: Account)
    | Contributed(account: Account, matched: real)
    | InvalidAmount(account: Account)
    | InsufficientFunds(account: Account)
    | ResetDone(account: Account)
    | NotLoggedIn
    | AccountNotFound
    | ServerError

  function Status(o: LedgerOutcome): int {
    match o
    case Shown(_) => 200
    case Contributed(_, _) => 200
    case ResetDone(_) => 200
    case InvalidAmount(_) => 400
    case InsufficientFunds(_) => 400
    case NotLoggedIn => 401
    case AccountNotFound => 404
    case ServerError => 500
  }

  datatype LedgerResult = LedgerResult(ledger: Ledger, outcome: LedgerOutcome)

  /** The account a request for `user` works on: the stored one, or a fresh
      one created on first use. Nobody else's account is touched. */
  function EnsureAccount(ledger: Ledger, user: string): (r: Ledger)
    ensures user in r
    ensures user in ledger ==> r == ledger
    ensures user !in ledger ==> r[user] == FreshAccount
    ensures r.Keys == ledger.Keys + {user}
    ensures forall u :: u in ledger ==> r[u] == ledger[u]
  {
    if user in ledger then ledger else ledger[user := FreshAccount]
  }

  /** `GET /balance`. */
  function GetBalance(ledger: Ledger, session: Session): (r: LedgerResult)
    ensures session.user.None? ==> r == LedgerResult(ledger, NotLoggedIn)
    ensures session.user.Some? ==> r.ledger == EnsureAccount(ledger, session.user.value)
    ensures session.user.Some? ==> r.outcome == Shown(r.ledger[session.user.value])
  {
    match session.user
    case None => LedgerResult(ledger, NotLoggedIn)
    case Some(u) =>
      var l := EnsureAccount(ledger, u);
      LedgerResult(l, Shown(l[u]))
  }

  /** The value Python compares with `<=` and `>`: numbers as they are, a
      boolean as 0 or 1; anything else makes the comparison raise. */
  function AmountValue(j: Json): (r: Option<real>)
    ensures r.Some? <==> j.JNum? || j.JBool?
    ensures j.JNum? ==> r == Some(j.n)
    ensures j.JBool? ==> r == Some(if j.b then 1.0 else 0.0)
  {
    match j
    case JNum(n) => Some(n)
    case JBool(b) => Some(if b then 1.0 else 0.0)
    case _ => None
  }

  /** `data.get("amount", 0)` for a JSON object body. */
  function AmountField(fields: map<string, Json>): Json {
    if "amount" in fields then fields["amount"] else JNum(0.0)
  }

  /** `POST /contribute` with the decoded JSON body. A body that is not an
      object fails at `data.get` before any account exists; an amount that
      is not a number fails at the comparison, after the account was
      created. */
  function Contribute(ledger: Ledger, session: Session, body: Json): (r: LedgerResult)
    ensures session.user.None? ==> r == LedgerResult(ledger, NotLoggedIn)
    ensures session.user.Some? && !body.JObj? ==> r == LedgerResult(ledger, ServerError)
    ensures session.user.Some? && body.JObj? ==> r.ledger.Keys == ledger.Keys + {session.user.value}
    ensures session.user.Some? && body.JObj? ==>
              forall u :: u in ledger && u != session.user.value ==> r.ledger[u] == ledger[u]
    ensures r.outcome.Contributed? <==>
              && session.user.Some? && body.JObj?
              && AmountValue(AmountField(body.fields)).Some?
              && var a := AmountValue(AmountField(body.fields)).value;
                 0.0 < a <= EnsureAccount(ledger, session.user.value)[session.user.value].funds
    ensures session.user.Some? && body.JObj? && AmountValue(AmountField(body.fields)).None? ==>
              r == LedgerResult(EnsureAccount(ledger, session.user.value), ServerError)
    ensures r.outcome.Contributed? ==>
              var u := session.user.value;
              var acct := EnsureAccount(ledger, u)[u];
              var a := AmountValue(AmountField(body.fields)).value;
              && r.ledger == EnsureAccount(ledger, u)[u := Account(acct.funds - a, acct.balance + a + a * MatchRate)]
              && r.outcome == Contributed(r.ledger[u], a * MatchRate)
  {
    match session.user
    case None => LedgerResult(ledger, NotLoggedIn)
    case Some(u) =>
      if !body.JObj? then LedgerResult(ledger, ServerError)
      else
        var l := EnsureAccount(ledger, u);
        var acct := l[u];
        match AmountValue(AmountField(body.fields))
        case None => LedgerResult(l, ServerError)
        case Some(a) =>
          if a <= 0.0 then LedgerResult(l, InvalidAmount(acct))
          else if a > acct.funds then LedgerResult(l, InsufficientFunds(acct))
          else
            var matched := a * MatchRate;
            var after := Account(acct.funds - a, acct.balance + a + matched);
            LedgerResult(l[u := after], Contributed(after, matched))
  }

  /** `POST /reset`: a missing account is reported, not created. */
  function Reset(ledger: Ledger, session: Session): (r: LedgerResult)
    ensures session.user.None? ==> r == LedgerResult(ledger, NotLoggedIn)
    ensures session.user.Some? && session.user.value !in ledger ==> r == LedgerResult(ledger, AccountNotFound)
    ensures session.user.Some? && session.user.value in ledger ==>
              r.outcome == ResetDone(FreshAccount) && r.ledger == ledger[session.user.value := FreshAccount]
  {
    match session.user
    case None => LedgerResult(ledger, NotLoggedIn)
    case Some(u) =>
      if u !in ledger then LedgerResult(ledger, AccountNotFound)
      else LedgerResult(ledger[u := FreshAccount], ResetDone(FreshAccount))
  }

  /** A JSON object body with the given amount. */
  function AmountBody(a: real): Json {
    JObj(map["amount" := JNum(a)])
  }

  /** A positive amount within the funds moves it to the balance, with the
      match added on top. */
  lemma ContributeMovesFunds(ledger: Ledger, user: string, a: real)
    requires 0.0 < a <= EnsureAccount(ledger, user)[user].funds
    ensures var before := EnsureAccount(ledger, user)[user];
            var r := Contribute(ledger, Session(Some(user), None), AmountBody(a));
            && r.outcome == Contributed(r.ledger[user], a / 2.0)
            && r.ledger[user].funds == before.funds - a
            && r.ledger[user].balance == before.balance + a * 3.0 / 2.0
  {
  }

  /** A non-positive amount, or one above the funds, is refused and the
      account keeps its values (after being created if it was missing). */
  lemma RefusedAmountChangesNothing(ledger: Ledger, user: string, a: real)
    requires a <= 0.0 || a > EnsureAccount(ledger, user)[user].funds
    ensures var r := Contribute(ledger, Session(Some(user), None), AmountBody(a));
            && Status(r.outcome) == 400
            && r.ledger == EnsureAccount(ledger, user)
  {
  }

  /** A missing `amount` counts as 0 and is refused. */
  lemma MissingAmountRefused(ledger: Ledger, user: string)
    ensures Contribute(ledger, Session(Some(user), None), JObj(map[])).outcome.InvalidAmount?
  {
  }

  /** The ledger invariant: no account ever holds negative money. */
  predicate Solvent(ledger: Ledger) {
    forall u :: u in ledger ==> ledger[u].funds >= 0.0 && ledger[u].balance >= 0.0
  }

  lemma ContributeKeepsSolvent(ledger: Ledger, session: Session, body: Json)
    requires Solvent(ledger)
    ensures Solvent(Contribute(ledger, session, body).ledger)
  {
    if session.user.Some? && body.JObj? {
      var u := session.user.value;
      var l := EnsureAccount(ledger, u);
      assert Solvent(l);
    }
  }

  lemma BalanceAndResetKeepSolvent(ledger: Ledger, session: Session)
    requires Solvent(ledger)
    ensures Solvent(GetBalance(ledger, session).ledger)
    ensures Solvent(Reset(ledger, session).ledger)
  {
  }

  /** What a contribution leaves unchanged: the funds counted at the match
      rate plus the balance. Money only moves, and grows by the match. */
  function Worth(a: Account): real {
    a.funds * (1.0 + MatchRate) + a.balance
  }

  lemma ContributeKeepsWorth(ledger: Ledger, session: Session, body: Json)
    requires session.user.Some?
    requires Contribute(ledger, session, body).outcome.Contributed?
    ensures var u := session.user.value;
            Worth(Contribute(ledger, session, body).ledger[u]) == Worth(EnsureAccount(ledger, u)[u])
  {
  }

  /** Two contributions in a row amount to one of their sum. */
  lemma ContributionsAdd(ledger: Ledger, user: string, a: real, b: real)
    requires 0.0 < a && 0.0 < b
    requires a + b <= EnsureAccount(ledger, user)[user].funds
    ensures var first := Contribute(ledger, Session(Some(user), None), AmountBody(a));
            var second := Contribute(first.ledger, Session(Some(user), None), AmountBody(b));
            var once := Contribute(ledger, Session(Some(user), None), AmountBody(a + b));
            second.ledger == once.ledger
  {
    var s := Session(Some(user), None);
    var first := Contribute(ledger, s, AmountBody(a));
    ContributeMovesFunds(ledger, user, a);
    assert EnsureAccount(first.ledger, user) == first.ledger;
    ContributeMovesFunds(first.ledger, user, b);
    ContributeMovesFunds(ledger, user, a + b);
  }

  /** Resetting twice is resetting once. */
  lemma ResetIdempotent(ledger: Ledger, session: Session)
    ensures Reset(Reset(ledger, session).ledger, session).ledger == Reset(ledger, session).ledger
  {
  }

  /** Reset undoes any contribution to an existing account. */
  lemma ResetAfterContribute(ledger: Ledger, session: Session, body: Json)
    requires session.user.Some? && session.user.value in ledger
    ensures Reset(Contribute(ledger, session, body).ledger, session).ledger
              == Reset(ledger, session).ledger
  {
  }
}

=== FILE: safe_names.dfy ===
/** File names and paths: werkzeug's `secure_filename` on a POSIX host
    (without its NFKD step: non-ASCII characters are dropped), and the
    `posixpath` functions `join` and `splitext`. */
module SafeNames {
  import opened Common
  import opened Text

  predicate IsAscii(c: char) {
    c < '\U{80}'
  }

  /** The characters `[A-Za-z0-9_.-]` that survive sanitising. */
  predicate IsSafeChar(c: char) {
    IsAsciiAlnum(c) || c == '_' || c == '.' || c == '-'
  }

  /** The characters stripped from both ends of a sanitised name. */
  predicate IsEdgeChar(c: char) {
    c == '.' || c == '_'
  }

  /** What every sanitised name looks like: safe characters only, and no
      `.` or `_` at either end. */
  predicate IsSecureName(s: string) {
    && (forall i :: 0 <= i < |s| ==> IsSafeChar(s[i]))
    && (s == [] || (!IsEdgeChar(s[0]) && !IsEdgeChar(s[|s| - 1])))
  }

  /** `filename.replace("/", " ")`. */
  function SlashToSpace(s: string): (r: string)
    ensures |r| == |s|
    ensures forall i :: 0 <= i < |s| ==> r[i] == (if s[i] == '/' then ' ' else s[i])
  {
    seq(|s|, i requires 0 <= i < |s| => if s[i] == '/' then ' ' else s[i])
  }

  /** `"_".join(s.split())`. `emitted` says a word has been written, `gap`
      that whitespace has been seen since. */
  function JoinWords(s: string, emitted: bool, gap: bool): (r: string)
    ensures forall i :: 0 <= i < |r| ==> r[i] == '_' || r[i] in s
    ensures forall i :: 0 <= i < |r| ==> !IsSpace(r[i])
    decreases |s|
  {
    if |s| == 0 then ""
    else if IsSpace(s[0]) then JoinWords(s[1..], emitted, emitted)
    else
      var rest := JoinWords(s[1..], true, false);
      assert forall i :: 0 <= i < |rest| ==> rest[i] == '_' || rest[i] in s by {
        forall i | 0 <= i < |rest| && rest[i] != '_' ensures rest[i] in s {
          var k :| 0 <= k < |s[1..]| && s[1..][k] == rest[i];
          assert s[k + 1] == rest[i];
        }
      }
      (if gap then "_" else "") + [s[0]] + rest
  }

  /** `s.lstrip("._")`. */
  function TrimEdgeStart(s: string): (r: string)
    ensures |r| <= |s| && r == s[|s| - |r|..]
    ensures r == [] || !IsEdgeChar(r[0])
    decreases |s|
  {
    if |s| > 0 && IsEdgeChar(s[0]) then TrimEdgeStart(s[1..]) else s
  }

  /** `s.rstrip("._")`. */
  function TrimEdgeEnd(s: string): (r: string)
    ensures |r| <= |s| && r == s[..|r|]
    ensures r == [] || !IsEdgeChar(r[|r| - 1])
    decreases |s|
  {
    if |s| > 0 && IsEdgeChar(s[|s| - 1]) then TrimEdgeEnd(s[..|s| - 1]) else s
  }

  /** `s.strip("._")`. */
  function StripEdges(s: string): (r: string)
    ensures forall i :: 0 <= i < |r| ==> r[i] in s
    ensures r == [] || (!IsEdgeChar(r[0]) && !IsEdgeChar(r[|r| - 1]))
  {
    var t := TrimEdgeStart(s);
    var r := TrimEdgeEnd(t);
    forall i | 0 <= i < |r| ensures r[i] in s {
      assert r[i] == t[i] == s[|s| - |t| + i];
    }
    r
  }

  /** `secure_filename(filename)`: the result is a name of safe characters
      only, with no directory separator and no leading dot, so it can name
      neither a parent directory nor a hidden file. */
  function SecureFilename(filename: string): (r: string)
    ensures IsSecureName(r)
    ensures '/' !in r
  {
    var ascii := Filter(filename, IsAscii);
    var words := JoinWords(SlashToSpace(ascii), false, false);
    var kept := Filter(words, IsSafeChar);
    var r := StripEdges(kept);
    SafeCharsKept(kept, r);
    r
  }

  lemma SafeCharsKept(kept: string, r: string)
    requires forall c :: c in kept ==> IsSafeChar(c)
    requires forall i :: 0 <= i < |r| ==> r[i] in kept
    ensures forall i :: 0 <= i < |r| ==> IsSafeChar(r[i]) && r[i] != '/'
  {
  }

  /** `os.path.join(directory, name)` for POSIX paths. */
  function JoinPath(directory: string, name: string): string {
    if StartsWith(name, "/") then name
    else if directory == [] || directory[|directory| - 1] == '/' then directory + name
    else directory + "/" + name
  }

  /** A name without a separator joined to a directory lands directly in
      that directory. */
  lemma JoinInside(directory: string, name: string)
    requires directory != [] && directory[|directory| - 1] != '/'
    requires '/' !in name
    ensures JoinPath(directory, name) == directory + "/" + name
  {
    assert !StartsWith(name, "/") by {
      if |name| > 0 {
        assert name[0] in name;
      }
    }
  }

  /** `os.path.splitext(name)`: the extension starts at the last dot,
      unless everything before that dot is dots. `posixpath` looks for
      that dot only after the last `/`; the names split here are
      sanitised and hold no `/`, so the separator is not modelled. */
  function SplitExt(name: string): (r: (string, string))
    ensures r.0 + r.1 == name
    ensures r.1 == [] || (r.1[0] == '.' && '.' !in r.1[1..])
    ensures r.1 != [] <==> exists i, d :: 0 <= i < d < |name| && name[i] != '.' && name[d] == '.'
  {
    match LastIndexOf(name, '.')
    case None => (name, [])
    case Some(d) =>
      if exists i :: 0 <= i < d && name[i] != '.' then
        assert name == name[..d] + name[d..];
        (name[..d], name[d..])
      else
        NoWordBeforeLastDot(name, d);
        (name, [])
  }

  /** When only dots precede the last dot, no character other than a dot
      is followed by any dot. */
  lemma NoWordBeforeLastDot(name: string, d: nat)
    requires d < |name| && forall j :: d < j < |name| ==> name[j] != '.'
    requires forall i :: 0 <= i < d ==> name[i] == '.'
    ensures !exists i, e :: 0 <= i < e < |name| && name[i] != '.' && name[e] == '.'
  {
  }

  /** Where the split falls: after a non-dot character, the extension is
      exactly the text from the last dot on. */
  lemma SplitExtAtLastDot(name: string, i: nat, d: nat)
    requires i < d < |name| && name[i] != '.' && name[d] == '.'
    requires forall j :: d < j < |name| ==> name[j] != '.'
    ensures SplitExt(name) == (name[..d], name[d..])
  {
    var r := SplitExt(name);
    assert r.1 != [];
    var n := |r.0|;
    assert name[n] == '.';
    assert name == r.0 + r.1;
  }

  // ------------------------------------------------------------- idempotence

  lemma FilterKeepsAll<T(!new)>(s: seq<T>, p: T -> bool)
    requires forall i :: 0 <= i < |s| ==> p(s[i])
    ensures Filter(s, p) == s
    decreases |s|
  {
    if |s| > 0 {
      FilterKeepsAll(s[1..], p);
      assert s == [s[0]] + s[1..];
    }
  }

  lemma {:induction false} JoinWordsNoSpace(s: string, emitted: bool)
    requires forall i :: 0 <= i < |s| ==> !IsSpace(s[i])
    ensures JoinWords(s, emitted, false) == s
    decreases |s|
  {
    if |s| > 0 {
      JoinWordsNoSpace(s[1..], true);
      assert s == [s[0]] + s[1..];
    }
  }

  lemma TrimEdgeStartClean(s: string)
    requires s == [] || !IsEdgeChar(s[0])
    ensures TrimEdgeStart(s) == s
  {
  }

  lemma TrimEdgeEndClean(s: string)
    requires s == [] || !IsEdgeChar(s[|s| - 1])
    ensures TrimEdgeEnd(s) == s
  {
  }

  /** A sanitised name is left as it is by a second sanitising. */
  lemma SecureFilenameFixpoint(s: string)
    requires IsSecureName(s)
    ensures SecureFilename(s) == s
  {
    assert forall i :: 0 <= i < |s| ==> IsAscii(s[i]) && !IsSpace(s[i]) && s[i] != '/';
    FilterKeepsAll(s, IsAscii);
    assert SlashToSpace(s) == s;
    JoinWordsNoSpace(s, false);
    FilterKeepsAll(s, IsSafeChar);
    TrimEdgeStartClean(s);
    TrimEdgeEndClean(s);
  }

  /** Sanitising twice is sanitising once. */
  lemma SecureFilenameIdempotent(filename: string)
    ensures SecureFilename(SecureFilename(filename)) == SecureFilename(filename)
  {
    SecureFilenameFixpoint(SecureFilename(filename));
  }
}

=== FILE: text.dfy ===
/** The Python `str` operations the core relies on: `isspace`, `strip`,
    ASCII `lower`/`upper`, `in` on strings, `rsplit('.', 1)`, slicing and
    `str(int)`. */
module Text {
  import opened Common

  /** Python's `str.isspace()` for one character. */
  predicate IsSpace(c: char) {
    c == ' ' || ('\t' <= c <= '\r') || ('\U{1c}' <= c <= '\U{1f}')
    || c == '\U{85}' || c == '\U{a0}' || c == '\U{1680}'
    || ('\U{2000}' <= c <= '\U{200a}') || c == '\U{2028}' || c == '\U{2029}'
    || c == '\U{202f}' || c == '\U{205f}' || c == '\U{3000}'
  }

  predicate IsBlank(s: string) {
    forall i :: 0 <= i < |s| ==> IsSpace(s[i])
  }

  predicate IsAsciiUpper(c: char) { 'A' <= c <= 'Z' }
  predicate IsAsciiLower(c: char) { 'a' <= c <= 'z' }
  predicate IsAsciiLetter(c: char) { IsAsciiUpper(c) || IsAsciiLower(c) }
  predicate IsAsciiDigit(c: char) { '0' <= c <= '9' }
  predicate IsAsciiAlnum(c: char) { IsAsciiLetter(c) || IsAsciiDigit(c) }

  function LowerChar(c: char): char {
    if IsAsciiUpper(c) then (c as int + 32) as char else c
  }

  function UpperChar(c: char): char {
    if IsAsciiLower(c) then (c as int - 32) as char else c
  }

  /** `s.lower()` restricted to ASCII letters. */
  function Lower(s: string): (r: string)
    ensures |r| == |s|
    ensures forall i :: 0 <= i < |s| ==> r[i] == LowerChar(s[i])
  {
    seq(|s|, i requires 0 <= i < |s| => LowerChar(s[i]))
  }

  /** `s.upper()` restricted to ASCII letters. */
  function Upper(s: string): (r: string)
    ensures |r| == |s|
    ensures forall i :: 0 <= i < |s| ==> r[i] == UpperChar(s[i])
  {
    seq(|s|, i requires 0 <= i < |s| => UpperChar(s[i]))
  }

  /** Leading whitespace removed: the result is a suffix of `s`, does not
      start with whitespace, and only whitespace was dropped. */
  function TrimStart(s: string): (r: string)
    ensures |r| <= |s| && r == s[|s| - |r|..]
    ensures r == [] || !IsSpace(r[0])
    ensures forall i :: 0 <= i < |s| - |r| ==> IsSpace(s[i])
    decreases |s|
  {
    if |s| > 0 && IsSpace(s[0]) then
      var r := TrimStart(s[1..]);
      assert forall i :: 1 <= i < |s| ==> s[i] == s[1..][i - 1];
      r
    else s
  }

  /** Trailing whitespace removed: the result is a prefix of `s`, does not
      end with whitespace, and only whitespace was dropped. */
  function TrimEnd(s: string): (r: string)
    ensures |r| <= |s| && r == s[..|r|]
    ensures r == [] || !IsSpace(r[|r| - 1])
    ensures forall i :: |r| <= i < |s| ==> IsSpace(s[i])
    decreases |s|
  {
    if |s| > 0 && IsSpace(s[|s| - 1]) then
      var r := TrimEnd(s[..|s| - 1]);
      assert forall i :: 0 <= i < |s| - 1 ==> s[i] == s[..|s| - 1][i];
      r
    else s
  }

  /** `s.strip()`. */
  function Strip(s: string): string {
    TrimEnd(TrimStart(s))
  }

  predicate IsStripped(s: string) {
    s == [] || (!IsSpace(s[0]) && !IsSpace(s[|s| - 1]))
  }

  lemma BlankConcat(x: string, y: string)
    requires IsBlank(x) && IsBlank(y)
    ensures IsBlank(x + y)
  {
    forall i | 0 <= i < |x + y| ensures IsSpace((x + y)[i]) {
      if i < |x| { assert (x + y)[i] == x[i]; } else { assert (x + y)[i] == y[i - |x|]; }
    }
  }

  lemma StripShape(s: string)
    ensures IsStripped(Strip(s))
    ensures Strip(s) == [] <==> IsBlank(s)
  {
    var a := TrimStart(s);
    var b := TrimEnd(a);
    var k := |s| - |a|;
    if b == [] {
      assert a == [];
    } else {
      assert b[0] == a[0] == s[k];
    }
  }

  lemma {:induction false} TrimStartOfStripped(s: string)
    requires s == [] || !IsSpace(s[0])
    ensures TrimStart(s) == s
  {
  }

  lemma {:induction false} TrimEndOfStripped(s: string)
    requires s == [] || !IsSpace(s[|s| - 1])
    ensures TrimEnd(s) == s
  {
  }

  /** Stripping an already stripped string changes nothing. */
  lemma StripStripped(s: string)
    requires IsStripped(s)
    ensures Strip(s) == s
  {
    TrimStartOfStripped(s);
    TrimEndOfStripped(s);
  }

  /** Whitespace added in front is removed again by `TrimStart`. */
  lemma {:induction false} TrimStartPadded(pre: string, s: string)
    requires IsBlank(pre)
    ensures TrimStart(pre + s) == TrimStart(s)
    decreases |pre|
  {
    if pre != [] {
      var t := pre + s;
      assert t[0] == pre[0];
      assert t[1..] == pre[1..] + s;
      assert TrimStart(t) == TrimStart(t[1..]);
      assert IsBlank(pre[1..]) by {
        forall i | 0 <= i < |pre| - 1 ensures IsSpace(pre[1..][i]) { assert pre[1..][i] == pre[i + 1]; }
      }
      TrimStartPadded(pre[1..], s);
    } else {
      assert pre + s == s;
    }
  }

  /** Whitespace added at the end is removed again by `TrimEnd`. */
  lemma {:induction false} TrimEndPadded(s: string, post: string)
    requires IsBlank(post)
    ensures TrimEnd(s + post) == TrimEnd(s)
    decreases |post|
  {
    if post != [] {
      var p := post[..|post| - 1];
      var t := s + post;
      assert t[|t| - 1] == post[|post| - 1];
      assert t[..|t| - 1] == s + p;
      assert TrimEnd(t) == TrimEnd(t[..|t| - 1]);
      assert IsBlank(p) by {
        forall i | 0 <= i < |p| ensures IsSpace(p[i]) { assert p[i] == post[i]; }
      }
      TrimEndPadded(s, p);
    } else {
      assert s + post == s;
    }
  }

  /** `TrimStart` only looks at the front: text appended behind a
      non-blank string survives it. */
  lemma {:induction false} TrimStartAppend(s: string, post: string)
    requires !IsBlank(s)
    ensures TrimStart(s + post) == TrimStart(s) + post
    decreases |s|
  {
    if IsSpace(s[0]) {
      assert (s + post)[1..] == s[1..] + post;
      assert !IsBlank(s[1..]) by {
        var i :| 0 <= i < |s| && !IsSpace(s[i]);
        assert s[1..][i - 1] == s[i];
      }
      TrimStartAppend(s[1..], post);
    }
  }

  /** Surrounding whitespace does not change what `strip` returns. */
  lemma StripPadded(pre: string, s: string, post: string)
    requires IsBlank(pre) && IsBlank(post)
    ensures Strip(pre + s + post) == Strip(s)
  {
    assert pre + s + post == pre + (s + post);
    TrimStartPadded(pre, s + post);
    if IsBlank(s) {
      BlankConcat(s, post);
      StripShape(s + post);
      StripShape(s);
    } else {
      calc {
        Strip(pre + s + post);
        TrimEnd(TrimStart(s + post));
        { TrimStartAppend(s, post); }
        TrimEnd(TrimStart(s) + post);
        { TrimEndPadded(TrimStart(s), post); }
        Strip(s);
      }
    }
  }

  lemma LowerCharKeepsSpace(c: char)
    ensures IsSpace(LowerChar(c)) <==> IsSpace(c)
  {
  }

  /** Lower-casing and stripping commute, because lower-casing maps
      whitespace to whitespace and nothing else to whitespace. */
  lemma {:induction false} TrimStartLower(s: string)
    ensures TrimStart(Lower(s)) == Lower(TrimStart(s))
    decreases |s|
  {
    if |s| > 0 {
      LowerCharKeepsSpace(s[0]);
      if IsSpace(s[0]) {
        calc {
          TrimStart(Lower(s));
          { assert Lower(s)[1..] == Lower(s[1..]); }
          TrimStart(Lower(s[1..]));
          { TrimStartLower(s[1..]); }
          Lower(TrimStart(s[1..]));
          Lower(TrimStart(s));
        }
      }
    }
  }

  lemma {:induction false} TrimEndLower(s: string)
    ensures TrimEnd(Lower(s)) == Lower(TrimEnd(s))
    decreases |s|
  {
    if |s| > 0 {
      var p := s[..|s| - 1];
      LowerCharKeepsSpace(s[|s| - 1]);
      if IsSpace(s[|s| - 1]) {
        calc {
          TrimEnd(Lower(s));
          { assert Lower(s)[..|s| - 1] == Lower(p); }
          TrimEnd(Lower(p));
          { TrimEndLower(p); }
          Lower(TrimEnd(p));
          Lower(TrimEnd(s));
        }
      }
    }
  }

  lemma StripLower(s: string)
    ensures Strip(Lower(s)) == Lower(Strip(s))
  {
    TrimStartLower(s);
    TrimEndLower(TrimStart(s));
  }

  lemma LowerIdempotent(s: string)
    ensures Lower(Lower(s)) == Lower(s)
  {
  }

  /** Lower-casing leaves a string without ASCII capitals unchanged. */
  lemma LowerNoUpper(s: string)
    requires forall i :: 0 <= i < |s| ==> !IsAsciiUpper(s[i])
    ensures Lower(s) == s
  {
    assert forall i :: 0 <= i < |s| ==> Lower(s)[i] == s[i];
  }

  lemma StrippedLower(s: string)
    requires IsStripped(s)
    ensures IsStripped(Lower(s))
  {
    if s != [] {
      LowerCharKeepsSpace(s[0]);
      LowerCharKeepsSpace(s[|s| - 1]);
    }
  }

  predicate StartsWith(s: string, prefix: string) {
    |prefix| <= |s| && s[..|prefix|] == prefix
  }

  /** Python's `q in s` on strings, read from the front. */
  predicate Contains(s: string, q: string)
    decreases |s|
  {
    StartsWith(s, q) || (|s| > 0 && Contains(s[1..], q))
  }

  /** `q` occurs in `s` at offset `i`. */
  predicate OccursAt(s: string, q: string, i: int) {
    0 <= i <= |s| - |q| && s[i..i + |q|] == q
  }

  /** `Contains` holds exactly when `q` occurs at some offset of `s`. */
  lemma {:induction false} ContainsOccurs(s: string, q: string)
    ensures Contains(s, q) <==> exists i :: OccursAt(s, q, i)
    decreases |s|
  {
    if StartsWith(s, q) {
      assert OccursAt(s, q, 0);
    } else if |s| == 0 {
    } else {
      ContainsOccurs(s[1..], q);
      if exists i :: OccursAt(s, q, i) {
        var i :| OccursAt(s, q, i);
        if i > 0 {
          assert s[1..][i - 1..i - 1 + |q|] == s[i..i + |q|];
          assert OccursAt(s[1..], q, i - 1);
        }
      }
      if Contains(s[1..], q) {
        var j :| OccursAt(s[1..], q, j);
        assert s[1..][j..j + |q|] == s[j + 1..j + 1 + |q|];
        assert OccursAt(s, q, j + 1);
      }
    }
  }

  /** Position of the last `c` in `s`, as `s.rfind(c)` reports it. */
  function LastIndexOf(s: string, c: char): (r: Option<nat>)
    ensures r.None? <==> c !in s
    ensures r.Some? ==> r.value < |s| && s[r.value] == c
    ensures r.Some? ==> forall j :: r.value < j < |s| ==> s[j] != c
    decreases |s|
  {
    if |s| == 0 then None
    else if s[|s| - 1] == c then Some(|s| - 1)
    else
      var p := s[..|s| - 1];
      assert s == p + [s[|s| - 1]];
      LastIndexOf(p, c)
  }

  /** The text after the last `c`, i.e. `s.rsplit(c, 1)[1]`, when `c` occurs. */
  function AfterLast(s: string, c: char): (r: Option<string>)
    ensures r.None? <==> c !in s
    ensures r.Some? ==> c !in r.value && |r.value| < |s|
                        && s == s[..|s| - |r.value| - 1] + [c] + r.value
  {
    match LastIndexOf(s, c)
    case None => None
    case Some(i) =>
      var tail := s[i + 1..];
      assert s == s[..i] + [c] + tail;
      assert forall k :: 0 <= k < |tail| ==> tail[k] == s[i + 1 + k];
      Some(tail)
  }

  /** `s[:n]`. */
  function Take<T>(s: seq<T>, n: nat): (r: seq<T>)
    ensures |r| == if |s| < n then |s| else n
    ensures r == s[..|r|]
  {
    if |s| <= n then s else s[..n]
  }

  function DigitChar(d: nat): (c: char)
    requires d < 10
    ensures IsAsciiDigit(c)
  {
    ('0' as int + d) as char
  }

  /** `str(n)` for a non-negative integer. */
  function NatToString(n: nat): (r: string)
    ensures |r| > 0
    ensures forall i :: 0 <= i < |r| ==> IsAsciiDigit(r[i])
    ensures n >= 10 ==> |r| >= 2
  {
    if n < 10 then [DigitChar(n)] else NatToString(n / 10) + [DigitChar(n % 10)]
  }

  lemma DigitCharInjective(a: nat, b: nat)
    requires a < 10 && b < 10 && DigitChar(a) == DigitChar(b)
    ensures a == b
  {
  }

  /** Different numbers print differently. */
  lemma {:induction false} NatToStringInjective(m: nat, n: nat)
    requires NatToString(m) == NatToString(n)
    ensures m == n
    decreases n
  {
    var s := NatToString(m);
    if m < 10 || n < 10 {
      assert m < 10 && n < 10;
      DigitCharInjective(m, n);
    } else {
      assert s[|s| - 1] == DigitChar(m % 10) == DigitChar(n % 10);
      DigitCharInjective(m % 10, n % 10);
      assert s[..|s| - 1] == NatToString(m / 10) == NatToString(n / 10);
      NatToStringInjective(m / 10, n / 10);
    }
  }
}
